=== FILE: README.md ===
# Training-portal record core, modelled in Dafny

The portal registers internship and project trainees of a steel plant. Under its React
screens sits a small sequential core, and this project models it:

- **Identifier allocation** (`constants.ts`). The next gate pass id is `SP` followed by
  the highest existing six-character suffix plus one, zero-padded to six digits. A random
  six-character application number from `0-9A-Z` is redrawn until it is unused.
- **The record store** (`App.tsx`). Add refuses an id that collides with a stored one
  after trim and upper-casing. Update replaces records by exact id. Delete removes records
  by exact id once the user confirms.
- **The admin dashboard's derived views** (`components/AdminDashboard.tsx`):
  - the seven-day split into new and archived records;
  - the two searches and the inclusive date filter;
  - the status counters;
  - the financial audit: counts by training type, the total, per-department and
    per-category ledgers sorted by value, and the mean per student;
  - adding and removing a record's stored documents.
- **The registration form** (`components/StudentForm.tsx`):
  - the blank record and the id effect;
  - the ordered validation gate and the page change it guards;
  - the final submission;
  - the two ways to continue: a new group, or another student in the same group.

## How the model is built

- `maybe.dfy`: `Option`.
- `js_text.dfy`: the JavaScript string and number behaviour the core relies on. This covers:
  - `trim` with the ECMAScript white-space set;
  - ASCII `toUpperCase` / `toLowerCase`;
  - `includes`;
  - `parseInt(s, 10)`: leading white space, an optional sign, leading digits, and NaN as
    `None`;
  - `Number.prototype.toString` on integers;
  - `padStart`.
- `number_box.dfy`: what the form reads from a number input. The browser keeps only
  valid floating-point text (an optional `-`, digits with an optional fraction, an
  optional exponent) and reports anything else as empty. The form stores `Number(text)`,
  here an exact decimal, and the age rule reads it back as `parseInt(String(x))`.
- `seqs.dfy`: order-preserving `filter`, counting and summing, with the lemmas the
  views need.
- `records.dfy`: the application record of `types.ts`. It is split into:
  - the student's personal part;
  - the group's shared training and referral part;
  - the office part.
- `identifiers.dfy`, `store.dfy`, `dashboard.dfy`, `audit.dfy`, `form.dfy`: one module
  per part of the core listed above.

Modelling choices:

- **Time.** A date or time is a `Timestamp`:
  - `Unset` is the empty string;
  - `Invalid` is text that `new Date` cannot parse;
  - `At(ms)` is a valid instant.

  "23:59:59.999 of the `to` day" is taken as the day's midnight plus 86 399 999 ms, that
  is, in UTC. The clock (`Date.now()`, today's midnight) is a parameter.
- **Randomness.**
  - The random draws of the application number are a parameter `rolls`: a sequence of
    six picks each, indices into the alphabet.
  - The retry loop is the first roll whose code is unused. Callers must provide a
    sequence that contains such a roll.
  - The random base-36 group token is a parameter `token`.
- **Host calls.**
  - `window.confirm` is a boolean parameter.
  - The file read by `FileReader` is an optional data-URL parameter.
  - `alert` is returned as a value (a `ValidationError`, or the store's
    `DuplicateGatePass` outcome).
- **Money.** An amount is read as `parseFloat(amount) || 0` restricted to its whole-number
  part. The part is read with the same rules as `parseInt`, so integers are summed
  exactly.

Behaviour that follows the code rather than the documented intent:

- A duplicate gate pass id is refused by the store, yet `handleFinalSubmit` still shows the
  success screen. `Form.SuccessShownAfterDuplicate` states this.
- A record without `createdAt` counts as created at time 0. It is "new" only while the
  clock reads at most seven days after the epoch, so in practice it is archived. A
  `createdAt` that does not parse compares as NaN and is always archived.
- The old-data search looks at the id and application number only, never the name.
- Add compares ids trimmed and case-insensitively; update and delete compare exactly.
  `Store.CaseAsymmetry` states this.

## Model

| member | source | states |
|---|---|---|
| Records.PartsDetermineRecord | types.ts:5-52 | two records that agree on id, application number, creation time and the personal, group and office parts are the same record, so the three parts cover every field |
| Records.Ids | components/StudentForm.tsx:156 | the id list handed to the allocator has one entry per stored record, in store order |
| Identifiers.NumericIds | constants.ts:148-151 | every id of the form `SP` plus six characters whose suffix starts with a number contributes that number, and every number considered lies between -99999 and 999999 |
| Identifiers.NumericIdsOrigin | constants.ts:148-151 | conversely, every considered number is the parsed suffix of some id in the list |
| Identifiers.NumericIdSource | constants.ts:148-151 | for each considered number, a position in the list whose id's suffix reads as that number |
| Identifiers.MaxOf | constants.ts:154 | the maximum is one of the numbers and no number exceeds it |
| Identifiers.NumericIdsConcat | constants.ts:148-151 | the considered numbers of a concatenated list are those of each part, in order |
| Identifiers.SuffixNumberBounds | constants.ts:150 | a parsed six-character suffix lies between -99999 and 999999 |
| Identifiers.LastNumberBounds | constants.ts:154 | the highest considered number, or 0, lies between -99999 and 999999 |
| Identifiers.LastNumberOrigin | constants.ts:148-154 | with no usable id the highest number is 0; otherwise it is the parsed suffix of some id in the list |
| Identifiers.FormattedSuffix | constants.ts:155-158 | the number plus one, written and zero-padded, is six characters long, and reads back as at least that number; for a non-negative number it reads back exactly |
| Identifiers.IdAfterReadsBack | constants.ts:150-158 | below the 999999 limit, the id formed after a number has a suffix that reads back as a larger number |
| Identifiers.LastNumber | constants.ts:154 | definition: the largest considered suffix number, or 0 when none is considered; characterised by Identifiers.LastNumberOrigin and Identifiers.LastNumberBounds |
| Identifiers.NextGatePassId | constants.ts:143-159 | definition: `SP` and the last number plus one, zero-padded to six characters; characterised by Identifiers.NextGatePassIdShape, Identifiers.NextGatePassIdExceedsAll and Identifiers.NextGatePassIdFresh |
| Identifiers.NextGatePassIdShape | constants.ts:144-145 | the allocated id starts with `SP`; below the 999999 limit it is eight characters; from a non-negative maximum it is well formed and its suffix reads back as the maximum plus one |
| Identifiers.NextGatePassIdExceedsAll | constants.ts:148-155 | every considered id's number is below the allocated number |
| Identifiers.NextGatePassIdFresh | constants.ts:148-158 | below the 999999 limit the allocated id is not among the existing ids |
| Identifiers.IgnoredIdsDoNotMatter | constants.ts:149-151 | inserting an id that is not `SP` plus six characters with a numeric suffix anywhere in the list leaves the allocated id unchanged |
| Identifiers.FirstGatePassId | constants.ts:148-158 | with no usable id the allocator returns `SP000001` |
| Identifiers.NumericIdsNonEmpty | constants.ts:148-151 | some number is considered exactly when some id has the `SP` plus six characters shape with a suffix that starts with a number |
| Identifiers.DigitSuffix | constants.ts:149-150 | a well-formed id's suffix reads as the decimal value of its six digits |
| Identifiers.WellFormedIdsCountFromZero | constants.ts:154 | when every id is well formed the highest considered number is not negative |
| Identifiers.WellFormedNumbersNonNegative | constants.ts:150 | when every id is well formed every considered number is non-negative |
| Identifiers.OneDigitSuffix | constants.ts:150 | `SP00000d` reads as the digit `d` |
| Identifiers.NextAfterOneDigit | constants.ts:155-158 | after a highest number below 9 the next id is `SP00000` followed by the next digit |
| Identifiers.TwoNumericIds | constants.ts:148-151 | two usable ids contribute their two numbers in order |
| Identifiers.GapsAreNotReused | constants.ts:154-158 | from `SP000001` and `SP000003` the next id is `SP000004`: the gap is not filled |
| Identifiers.NegativeSuffixIsPaddedAroundTheSign | constants.ts:150-158 | the suffix `-00005` reads as -5, and the next id is `SP0000-4`, padded in front of the minus sign |
| Identifiers.SixNines | constants.ts:150 | the text `999999` is six digits with value 999999 |
| Identifiers.OneMillionText | constants.ts:158 | one million is written with seven characters |
| Identifiers.SequenceOverflowsSixDigits | constants.ts:155-158 | after `SP999999` the next id is `SP1000000`, nine characters long |
| Identifiers.LastSixDigitSuffix | constants.ts:150 | `SP999999` reads as 999999 |
| Identifiers.OnlyNumber | constants.ts:154 | a single usable id gives its own number as the maximum |
| Identifiers.NextAfterLastSixDigitNumber | constants.ts:155-158 | whenever the maximum is 999999 the next id is `SP1000000` |
| Identifiers.Code | constants.ts:166-172 | one draw spells six characters of `0-9A-Z` |
| Identifiers.UniqueApplicationNo | constants.ts:161-180 | the number returned has six characters of `0-9A-Z`, is not in the existing list, and is the code of the first draw whose code is unused |
| Store.HandleAdd | App.tsx:26-38 | an accepted record is appended: the store grows by one, earlier records are untouched and the new one is last |
| Store.AddChecksNormalizedIds | App.tsx:28-37 | add refuses exactly when a stored id equals the new id after trim and upper-casing, leaving the store as it was, and otherwise appends |
| Store.AddPreservesUniqueIds | App.tsx:28-37 | add keeps the invariant that no two stored ids coincide after trim and upper-casing |
| Store.UpdateById | App.tsx:40-42 | update keeps the length and every position's id; a position becomes the new record exactly when its id equals the new id, case-sensitively, and every other position is unchanged |
| Store.UpdateWithoutMatchIsNoop | App.tsx:41 | an update whose id matches no stored id exactly leaves the store unchanged |
| Store.UpdateIdempotent | App.tsx:41 | updating twice with the same record is updating once |
| Store.UpdatePreservesUniqueIds | App.tsx:41 | update keeps the normalised-id uniqueness invariant |
| Store.HandleDelete | App.tsx:44-48 | without confirmation nothing changes; with it, exactly the records whose id differs from the target remain, in their order, each as many times as it was stored, and none with the target id |
| Store.DeleteIdempotent | App.tsx:46 | deleting the same id twice is deleting it once |
| Store.DeleteAbsentIsNoop | App.tsx:46 | deleting an id no record has changes nothing |
| Store.DeletePreservesUniqueIds | App.tsx:46 | delete keeps the normalised-id uniqueness invariant |
| Store.CaseAsymmetry | App.tsx:29-46 | an id that matches a stored one only after trim and upper-casing is refused by add, yet update and delete with it change nothing |
| Store.LowerCaseIdCollides | App.tsx:29 | `sp000001` and `SP000001` differ, yet add treats them as the same id |
| Store.WellFormedIdIsNormal | App.tsx:29 | trimming and upper-casing leaves an allocated-format id unchanged |
| Store.AllocatedIdIsAccepted | App.tsx:26-38 | when every stored id is well formed and below the limit, a record carrying the allocator's next id is always accepted and appended |
| Dashboard.SplitByRecency | components/AdminDashboard.tsx:89-103 | the new and archived lists are the records inside and outside the seven-day window; together they hold every record once, and each keeps store order |
| Dashboard.RecencyWindow | components/AdminDashboard.tsx:91-96 | a record exactly seven days old is new, an older one is archived, a future one is new, an unparseable time is archived, and a missing time is new only while the clock is within seven days of the epoch |
| Dashboard.FilteredNewData | components/AdminDashboard.tsx:105-113 | an empty term keeps the list; otherwise exactly the records whose lower-cased id, application number or name contains the lower-cased term remain, in order, each with its multiplicity in the list and no other record |
| Dashboard.EmptySearchKeepsEverything | components/AdminDashboard.tsx:106 | the empty term matches every record |
| Dashboard.NewSearchIdempotent | components/AdminDashboard.tsx:105-113 | searching the result again with the same term changes nothing |
| Dashboard.DateRangeIsInclusive | components/AdminDashboard.tsx:120-130 | a dated record passes exactly when it lies between the `from` midnight and the last millisecond of the `to` day; no bounds, or no date, always pass |
| Dashboard.FilteredOldData | components/AdminDashboard.tsx:115-135 | the archive filter keeps, in order, exactly the records that match the term on id or application number and lie in the date range, each with its multiplicity and no other record |
| Dashboard.OldSearchIgnoresName | components/AdminDashboard.tsx:117-119 | the archive's text match does not depend on the student name |
| Dashboard.UndatedOldRecordsKept | components/AdminDashboard.tsx:120-133 | with an empty term, undated records pass whatever the date bounds |
| Dashboard.ComputeStats | components/AdminDashboard.tsx:137-151 | the total is the number of records; pending, approved and ongoing are the numbers of positions holding a pending record, an approved record, and an approved record whose training dates contain today's midnight; pending plus approved does not exceed the total, and ongoing does not exceed approved |
| Dashboard.StatsAfterAdd | components/AdminDashboard.tsx:137-151 | after an accepted add, the total grows by one and each counter grows by one exactly when the new record qualifies for it |
| Dashboard.StatsCoverAllWithoutRejections | components/AdminDashboard.tsx:141-142 | when no record is rejected, pending plus approved is the total |
| Dashboard.PendingComplementIsApproved | components/AdminDashboard.tsx:141-142 | when no record is rejected, the records that are not pending are exactly the approved ones, in order |
| Dashboard.WithDocument | components/AdminDashboard.tsx:62-68 | the upload sets the document under its type, keeps every other document and every other record field |
| Dashboard.WithoutDocument | components/AdminDashboard.tsx:78-83 | removal deletes exactly that document type and keeps every other document and field |
| Dashboard.UploadThenRemove | components/AdminDashboard.tsx:56-87 | uploading a new document type and then removing it restores the record |
| Dashboard.HandleFileUpload | components/AdminDashboard.tsx:56-74 | without a file or an open record nothing changes; otherwise the open record gains the document, keeps every other document and field, and the store's record with its id is replaced by it |
| Dashboard.HandleRemoveFile | components/AdminDashboard.tsx:76-87 | without an open record holding documents nothing changes; otherwise the document is removed from the open record, every other document and field is kept, and the store is updated with it |
| Audit.Bump | components/AdminDashboard.tsx:406-408 | adding an amount under a key raises that key's value and the total by the amount, leaves other keys' values alone, adds the key if new, and keeps keys distinct |
| Audit.Tally | components/AdminDashboard.tsx:403-409 | the tally's total is the sum of the amounts, its keys are those of the records, and its keys are distinct |
| Audit.TallyValue | components/AdminDashboard.tsx:403-409 | a key's tallied value is the sum of the amounts of the records filed under it |
| Audit.InsertByValue | components/AdminDashboard.tsx:415-416 | inserting into a list sorted by decreasing value keeps it sorted and adds exactly that entry |
| Audit.InsertAddsKey | components/AdminDashboard.tsx:415-416 | insertion adds the entry's key and keeps keys distinct when the key is new |
| Audit.InsertAddsValue | components/AdminDashboard.tsx:415-416 | insertion adds the entry's value to the total and to its key |
| Audit.SortByValueDesc | components/AdminDashboard.tsx:415-416 | the sorted ledger is a permutation of the entries in non-increasing value order |
| Audit.SortKeepsSums | components/AdminDashboard.tsx:415-416 | sorting keeps the total and every key's value |
| Audit.SortKeepsKeys | components/AdminDashboard.tsx:415-416 | sorting keeps the keys and their distinctness |
| Audit.Ledger | components/AdminDashboard.tsx:401-416 | a ledger lists each key of the records once, in non-increasing value order, and its values add up to the sum of all amounts |
| Audit.LedgerValue | components/AdminDashboard.tsx:401-416 | a ledger's value for a key is the sum of the amounts of the records filed under that key |
| Audit.Mean | components/AdminDashboard.tsx:417 | the mean is 0 for an empty report; otherwise, multiplied by the count, it gives back the total |
| Audit.TypesPartition | components/AdminDashboard.tsx:397-400 | the internship and project records together are all the records, in count and in amount |
| Audit.TypeCounts | components/AdminDashboard.tsx:397-400 | the internship and project counts are the numbers of positions holding a record of that training type |
| Audit.DefaultKeysAreNonEmpty | components/AdminDashboard.tsx:405-407 | an empty department is filed under `General` and an empty category under `Unspecified`, so no key is empty |
| Audit.ReportRecords | components/AdminDashboard.tsx:383-396 | the report keeps, in order, exactly the records inside the range with both bounds inclusive, and every record without a creation time, each with its multiplicity and no other record |
| Audit.UnboundedReportKeepsAll | components/AdminDashboard.tsx:386-395 | without bounds the report covers every record |
| Audit.ComputeAudit | components/AdminDashboard.tsx:382-419 | the report's records are those in range; the internship and project counts are the numbers of those records of each training type, and add up to their number; the total is the sum of their amounts, unparseable amounts adding 0; the mean is the total over the count, or 0 |
| Audit.AuditLedgersBalance | components/AdminDashboard.tsx:398-416 | the department and category ledgers each add up to the total, and each key's value is the sum of the amounts of the records filed under it |
| Audit.AuditLedgersShape | components/AdminDashboard.tsx:401-416 | both ledgers list distinct keys in non-increasing value order, exactly the records' keys, none of them empty |
| Form.BlankApplication | components/StudentForm.tsx:112-146 | a blank record has no id or application number, the given group or none, blank personal details, an internship of 0 days without dates, department or referral, the IOM default, blank payment and letter fields, pending status, no documents, and the current time as creation time |
| Form.OpenForm | components/StudentForm.tsx:148-150 | the form opens on the main page with no active group and no success; it edits the given record or a blank one, and the college box shows the record's college, marked as other when it is not a listed college |
| Form.InitializeIds | components/StudentForm.tsx:154-169 | in add mode a record without an id gets the next gate pass id, an unused application number and the active group's id or else the fresh token, with nothing else changed; otherwise the state is unchanged |
| Form.Violates | components/StudentForm.tsx:188-192 | definition: the five checks of `validateForm`, each taken on its own (missing personal details, under age, equal contact numbers, missing educational details, missing training dates); Form.ValidateForm orders them and Form.ValidRecordIsComplete spells out what passing all five means |
| Form.FirstBroken | components/StudentForm.tsx:187-194 | checking the five rules in order finds none exactly when none is broken, and otherwise the first broken rule, every earlier rule holding |
| Form.ValidateForm | components/StudentForm.tsx:187-194 | no error exactly when every rule holds; otherwise the first rule, in checking order, that the record breaks |
| Form.AgeRuleIsThreshold | components/StudentForm.tsx:179-189 | for an age the box holds as a non-zero number, the age rule refuses it exactly when it is negative, below 18, or at least 10^21 (where `String` switches to exponent notation and `parseInt` keeps only the first digit) |
| NumberBox.FloatValue | components/StudentForm.tsx:183 | definition: the number `Number(value)` gives for the `type="number"` age box (line 317), or none when the box refuses the text and reports it empty; a result keeps the text's sign; characterised by NumberBox.FloatValueOfWhole, NumberBox.FloatValueOfFraction and NumberBox.FloatValueOfNat |
| NumberBox.ParseIntOfNumber | components/StudentForm.tsx:189 | definition: `parseInt(String(x))`; zero reads as 0 and the result has the number's sign; characterised by NumberBox.ParseIntThreshold and NumberBox.ParseIntOfWholeNumber |
| NumberBox.ParseIntThreshold | components/StudentForm.tsx:189 | `parseInt(String(x))` of a non-zero number is below a threshold from 10 to 10^21 exactly when the number is negative, below the threshold, or at least 10^21 |
| NumberBox.FloatValueOfWhole | components/StudentForm.tsx:179-185 | the number box accepts digits followed by nothing or by `e`/`E` and an exponent, and stores the digits' value times ten to the exponent |
| NumberBox.FloatValueOfFraction | components/StudentForm.tsx:179-185 | the number box accepts digits, a point, more digits and an optional exponent, and stores all the digits' value shifted by the exponent less the number of fraction digits |
| NumberBox.FloatValueOfNat | components/StudentForm.tsx:179-185 | the decimal digits of a natural number are text the number box accepts, and it stores that number |
| NumberBox.ParseIntOfWholeNumber | components/StudentForm.tsx:189 | a natural number below 10^21 reads back through `String` and `parseInt` as itself |
| Form.WholeNumberAge | components/StudentForm.tsx:179-189 | a non-zero age typed as plain digits is present, and is refused as under age exactly when it is below 18 or at least 10^21 |
| Form.ExponentAgePasses | components/StudentForm.tsx:179-189 | the age `2e1` is stored as 20, is present and passes the age rule |
| Form.FractionalExponentAgePasses | components/StudentForm.tsx:179-189 | the age `1.8e1` is stored as 18, is present and passes the age rule |
| Form.FractionalAgeIsTruncated | components/StudentForm.tsx:179-189 | the age `17.9` is present, but `parseInt` cuts it to 17, so the age rule refuses it |
| Form.HugeAgeReadsAsItsFirstDigit | components/StudentForm.tsx:179-189 | the age `1e21` is written back as `1e+21`, which `parseInt` reads as 1, so the age rule refuses it |
| Form.ValidRecordIsComplete | components/StudentForm.tsx:179-192 | a record that passes has a name, an age and a mobile number different from the emergency one, a college, a course, a start date and a non-zero length; its age is text the number box accepts, non-zero, not negative, at least 18 and below 10^21 |
| Form.RefusedAgeTextIsMissing | components/StudentForm.tsx:179-188 | age text the number box refuses (not starting with a digit, a minus sign or a point) leaves the box empty, and the form reports missing personal details |
| Form.ZeroAgeIsMissing | components/StudentForm.tsx:179-188 | a zero typed into the number box for the age, with or without leading zeros or a minus sign, is reported as missing personal details and not as under age |
| Form.ZeroWithFractionIsMissing | components/StudentForm.tsx:179-188 | the age `0.0` is zero too and is reported as missing personal details |
| Form.BlankFormIsRefused | components/StudentForm.tsx:188 | a blank form is refused for missing personal details |
| Form.NextPage | components/StudentForm.tsx:196-201 | on a validation error the state stays and the error is reported; otherwise the undertaking page opens |
| Form.UndertakingNeedsValidRecord | components/StudentForm.tsx:196-201 | the undertaking page is reached from the main page only with a record that breaks no rule |
| Form.FinalSubmit | components/StudentForm.tsx:203-208 | the record goes to the store's add in add mode and to its update in edit mode; the form's group becomes active, or none when the group id is empty, and the success screen shows |
| Form.SubmitAppendsUnlessDuplicate | components/StudentForm.tsx:203-208 | in add mode the store gains the record at the end unless its id collides, in which case the store is unchanged |
| Form.SuccessShownAfterDuplicate | components/StudentForm.tsx:203-208 | a submission refused as a duplicate still shows the success screen |
| Form.ResetForNewGroup | components/StudentForm.tsx:210-217 | a new group starts on the main page with no active group, no success, a blank record and an empty college box |
| Form.AddNewStudentToGroup | components/StudentForm.tsx:219-250 | the next student gets the next gate pass id, an unused application number, blank personal and academic details and a new creation time, while the group's training, referral and office fields and the active group carry over |
| Form.SiblingsShareGroupDetails | components/StudentForm.tsx:154-250 | after submitting a student with a group and adding another, the new record has the same group details, the group stays active, and the id effect leaves it alone |
| Form.SiblingGetsNewGatePassId | components/StudentForm.tsx:203-250 | when the submitted student was stored and ids are below the limit, the next student's gate pass id differs from it |
| Form.NewGroupGetsToken | components/StudentForm.tsx:154-217 | resetting and then running the id effect gives a blank record with the next gate pass id, an unused application number and the fresh token as group id |
| JsText.ParseInt | constants.ts:150 | `parseInt` reads a value whose magnitude is bounded by the text's length |
| JsText.ParseIntOfDigits | constants.ts:150 | a digit string reads as its decimal value |
| JsText.NatToString | constants.ts:158 | a number is written as a digit string without leading zeros that reads back as the number |
| JsText.PadStartShape | constants.ts:158 | `padStart` never cuts: the result is as wide as the text or the width, whichever is larger, ends with the text, and holds only the filler before it |
| JsText.ZeroPaddedRoundTrip | constants.ts:158 | a number zero-padded to a width is all digits and reads back as the number |
| JsText.ContainsAt | components/AdminDashboard.tsx:109-111 | `includes` holds exactly when the needle occurs at some position |
| JsText.TrimStart | App.tsx:29 | the result is a suffix of the text, everything cut is white space, and it does not start with white space |
| JsText.TrimEnd | App.tsx:29 | the result is a prefix of the text, everything cut is white space, and it does not end with white space |

## Left out

- The screens, print templates, certificates, the gate pass and rate-chart layouts: they
  are presentation only.
- Loading and saving the store in `localStorage` (`App.tsx:15-24`): browser I/O.
- `calculateToDate` and the effect that fills `toDate` (`components/StudentForm.tsx:172-177`):
  they depend on the host's calendar and time zone. The model keeps `toDate` as whatever
  the record holds.
- `handleChange` (`components/StudentForm.tsx:179-185`): a generic field setter. In the
  model it is any record update. It stores a number input's value as `Number(value)`; the
  model keeps the age as the text the box held and reads it as the number `Number` gives
  (`NumberBox.FloatValue`): zero or refused text is missing (`Form.AgeMissing`). It keeps
  `days` as an integer.
- When React runs the id effect: `Form.InitializeIds` is the effect's body, and the caller
  decides when it runs.
- Closing the editor after an edit-mode submit, the alerts, `window.print` and scrolling:
  host calls with no effect on the records.
- Reading the uploaded file: the data URL is a parameter.
- The college list and its locale sort (`constants.ts:2-141`): a parameter of
  `Form.OpenForm`.
- Audit.AmountOf: reads only the whole-number part of an amount. Fractions, exponents and
  `Infinity` are left out, and so are floating-point rounding in the sums and the mean.
- Audit.Ledger: entries are kept in insertion order before the stable sort. JavaScript
  lists integer-like keys (such as a department named `12`) first. That changes only the
  order of entries with equal values. The ledgers are also JavaScript `{}` objects, so a
  key naming an `Object.prototype` member behaves differently there. `__proto__` keeps no
  entry, and its amounts are lost. `constructor`, `toString`, `valueOf`,
  `hasOwnProperty` and the other member names start from a function instead of 0, so
  their entry becomes a string and the sort compares NaN. The model treats every key as
  a plain string key, so for such departments or categories the source's ledgers need not
  balance or be sorted.
- Audit.Bump: treats every key as a plain key starting from 0. A key naming an
  `Object.prototype` member is not, as under Audit.Ledger.
- Audit.Tally: its total and keys hold for plain keys only. Keys naming
  `Object.prototype` members are left out, as under Audit.Ledger.
- Audit.TallyValue: the sum per key holds for plain keys only, as under Audit.Ledger.
- Audit.LedgerValue: the value per key holds for plain keys only, as under Audit.Ledger.
- Audit.AuditLedgersBalance: the ledgers balance for plain keys only, as under
  Audit.Ledger.
- Audit.AuditLedgersShape: the order and keys hold for plain keys only, as under
  Audit.Ledger.
- Store.AddChecksNormalizedIds: compares ids upper-cased with JsText.ToUpper, which maps
  ASCII letters only. JavaScript maps `"sp-ß".toUpperCase()` to `"SP-SS"`, so the source
  refuses that id when `SP-SS` is stored, and the model accepts it.
- Store.HandleAdd: refuses duplicates up to ASCII case only, as under
  Store.AddChecksNormalizedIds.
- Store.AddPreservesUniqueIds: the ids it keeps distinct are normalised with ASCII
  upper-casing only, as under Store.AddChecksNormalizedIds.
- JsText.ToUpper: maps ASCII letters only. Other letters are kept, where JavaScript would
  map them too.
- JsText.ToLower: maps ASCII letters only. JavaScript also lowers other letters, such as `É`
  to `é`.
- Dashboard.FilteredNewData: the name search is case-insensitive for ASCII letters only,
  because it uses JsText.ToLower. A term `é` finds no name spelt `É` here, where the
  source finds it.
- Dashboard.FilteredOldData: the id and application number search lowers ASCII only, as
  under JsText.ToLower.
- Form.ValidateForm: the age is an exact decimal. `Number` rounds to the nearest double
  and turns numbers beyond about 1.8e308 into `Infinity`; neither is modelled, so an age
  whose rounded value crosses 18 or 10^21, or that overflows, is judged on its exact value.
  The box's value is taken to be the typed text when that is valid floating-point text,
  and the empty string otherwise.
- Identifiers.NumericIds: lengths and suffixes are counted in Unicode scalar values,
  where JavaScript's `length` and `substring` count UTF-16 code units. An id holding a
  character outside the Basic Multilingual Plane is measured differently. The allocator
  only produces ASCII ids, so this matters only for ids stored from elsewhere.
- JsText.ParseInt: its contract states bounds only. Its exact value on digit strings is
  `JsText.ParseIntOfDigits`.
- Identifiers.UniqueApplicationNo: requires a random sequence that eventually yields an
  unused code. The source's loop has no bound, and a run that never finds one is not
  modelled.
- Form.FormState: holds a whole record. Fields the form leaves `undefined` (amount,
  payment, letter and document fields) are empty strings or `None`. Both are falsy, so no
  test in the core can tell them apart.
- Form.BlankApplication: takes the creation time as a parameter instead of reading the clock.
- `days` is an integer. The days box is a number input (`components/StudentForm.tsx:375`),
  so a refused entry reaches the form as 0, like the model's 0. A fractional or exponent
  entry such as `0.5` is not modelled: it is truthy for `!formData.days`
  (`components/StudentForm.tsx:192`), where an integer 0 is not.

=== FILE: audit.dfy ===
/** The financial audit report (components/AdminDashboard.tsx, `FinancialReportView`):
    the records in the report's date range, counted by training type, summed in total,
    per department and per fee category, and averaged per student. */
module Audit {
  import opened Maybe
  import opened JsText
  import opened Seqs
  import opened Records
  import Dashboard

  /** `parseFloat(a.amount) || 0`, reading the amount's whole-rupee part: leading
      whitespace, an optional sign and digits; anything that does not start with a number
      contributes 0. */
  function AmountOf(a: Application): int {
    ParseInt(a.amount).GetOr(0)
  }

  /** `a.deptIPT || 'General'`. */
  function DeptKey(a: Application): string {
    if a.deptIPT == "" then "General" else a.deptIPT
  }

  /** `a.category || 'Unspecified'`. */
  function CategoryKey(a: Application): string {
    if a.category == "" then "Unspecified" else a.category
  }

  function KeyIs(key: Application -> string, k: string): Application -> bool {
    (a: Application) => key(a) == k
  }

  /** One `[key, sum]` pair of `Object.entries(stats)`. */
  type Entry = (string, int)

  /** The keys of an entry list. */
  function KeySet(e: seq<Entry>): set<string> {
    set i | 0 <= i < |e| :: e[i].0
  }

  predicate DistinctKeys(e: seq<Entry>) {
    forall i, j :: 0 <= i < j < |e| ==> e[i].0 != e[j].0
  }

  /** The sum of all values in an entry list. */
  function Total(e: seq<Entry>): int {
    if |e| == 0 then 0 else e[0].1 + Total(e[1..])
  }

  /** The sum of the values listed under `k` (0 when `k` is absent). */
  function ValueOf(e: seq<Entry>, k: string): int {
    if |e| == 0 then 0 else (if e[0].0 == k then e[0].1 else 0) + ValueOf(e[1..], k)
  }

  lemma KeySetCons(e: seq<Entry>)
    requires |e| > 0
    ensures KeySet(e) == {e[0].0} + KeySet(e[1..])
  {
    forall y | y in KeySet(e[1..]) ensures y in KeySet(e) {
      var i :| 0 <= i < |e[1..]| && e[1..][i].0 == y;
      assert e[i + 1].0 == y;
    }
  }

  lemma DistinctKeysTail(e: seq<Entry>)
    requires |e| > 0
    ensures DistinctKeys(e) ==> e[0].0 !in KeySet(e[1..]) && DistinctKeys(e[1..])
  {
  }

  /** Totals and per-key values of a list with one more entry in front. */
  lemma ConsSums(x: Entry, e: seq<Entry>)
    ensures Total([x] + e) == x.1 + Total(e)
    ensures forall k :: ValueOf([x] + e, k) == ValueOf(e, k) + (if x.0 == k then x.1 else 0)
  {
    assert ([x] + e)[1..] == e;
  }

  lemma DistinctKeysCons(x: Entry, e: seq<Entry>)
    ensures DistinctKeys(e) && x.0 !in KeySet(e) ==> DistinctKeys([x] + e)
  {
    if DistinctKeys(e) && x.0 !in KeySet(e) {
      var r := [x] + e;
      forall i, j | 0 <= i < j < |r| ensures r[i].0 != r[j].0 {
        if i == 0 {
          assert r[j].0 == e[j - 1].0;
        } else {
          assert r[i] == e[i - 1] && r[j] == e[j - 1];
        }
      }
    }
  }

  /** `stats[k] = (stats[k] || 0) + v` on an object whose keys keep insertion order. */
  function Bump(e: seq<Entry>, k: string, v: int): (r: seq<Entry>)
    ensures Total(r) == Total(e) + v
    ensures forall k' :: ValueOf(r, k') == ValueOf(e, k') + (if k' == k then v else 0)
    ensures KeySet(r) == KeySet(e) + {k}
    ensures DistinctKeys(e) ==> DistinctKeys(r)
  {
    if |e| == 0 then [(k, v)]
    else if e[0].0 == k then
      var r := [(k, e[0].1 + v)] + e[1..];
      assert r[1..] == e[1..];
      KeySetCons(r);
      KeySetCons(e);
      DistinctKeysTail(e);
      DistinctKeysCons(r[0], e[1..]);
      r
    else
      var rest := Bump(e[1..], k, v);
      var r := [e[0]] + rest;
      assert r[1..] == rest;
      KeySetCons(r);
      KeySetCons(e);
      DistinctKeysTail(e);
      DistinctKeysCons(e[0], rest);
      r
  }

  /** The keys the records produce. */
  function KeysOf(apps: seq<Application>, key: Application -> string): set<string> {
    set i | 0 <= i < |apps| :: key(apps[i])
  }

  lemma KeysOfCons(apps: seq<Application>, key: Application -> string)
    requires |apps| > 0
    ensures KeysOf(apps, key) == {key(apps[0])} + KeysOf(apps[1..], key)
  {
    forall x | x in KeysOf(apps[1..], key) ensures x in KeysOf(apps, key) {
      var i :| 0 <= i < |apps[1..]| && key(apps[1..][i]) == x;
      assert key(apps[i + 1]) == x;
    }
  }

  /** The `forEach` that fills a per-key object, one record after the other. */
  function Tally(acc: seq<Entry>, apps: seq<Application>, key: Application -> string): (r: seq<Entry>)
    ensures Total(r) == Total(acc) + SumBy(apps, AmountOf)
    ensures KeySet(r) == KeySet(acc) + KeysOf(apps, key)
    ensures DistinctKeys(acc) ==> DistinctKeys(r)
    decreases |apps|
  {
    if |apps| == 0 then acc
    else
      var r := Tally(Bump(acc, key(apps[0]), AmountOf(apps[0])), apps[1..], key);
      KeysOfCons(apps, key);
      r
  }

  /** The value tallied under `k` is what it started at plus the amounts of the records
      filed under `k`. */
  lemma {:induction false} TallyValue(acc: seq<Entry>, apps: seq<Application>, key: Application -> string, k: string)
    ensures ValueOf(Tally(acc, apps, key), k) == ValueOf(acc, k) + SumBy(Filter(apps, KeyIs(key, k)), AmountOf)
    decreases |apps|
  {
    if |apps| > 0 {
      TallyValue(Bump(acc, key(apps[0]), AmountOf(apps[0])), apps[1..], key, k);
      var head := if key(apps[0]) == k then [apps[0]] else [];
      assert Filter(apps, KeyIs(key, k)) == head + Filter(apps[1..], KeyIs(key, k));
      SumByConcat(head, Filter(apps[1..], KeyIs(key, k)), AmountOf);
    }
  }

  predicate SortedByValueDesc(e: seq<Entry>) {
    forall i, j :: 0 <= i < j < |e| ==> e[i].1 >= e[j].1
  }

  /** An entry that is at least every value of a sorted list may precede it. */
  lemma SortedCons(x: Entry, e: seq<Entry>)
    requires SortedByValueDesc(e)
    requires forall j :: 0 <= j < |e| ==> e[j].1 <= x.1
    ensures SortedByValueDesc([x] + e)
  {
    var r := [x] + e;
    forall i, j | 0 <= i < j < |r| ensures r[i].1 >= r[j].1 {
      assert r[j] == e[j - 1];
      if i > 0 {
        assert r[i] == e[i - 1];
      }
    }
  }

  /** A bound on every value carries over to any rearrangement with one more entry. */
  lemma BoundCarries(h: int, rest: seq<Entry>, e: seq<Entry>, x: Entry)
    requires multiset(rest) == multiset(e) + multiset{x}
    requires forall j :: 0 <= j < |e| ==> e[j].1 <= h
    requires x.1 <= h
    ensures forall j :: 0 <= j < |rest| ==> rest[j].1 <= h
  {
    forall j | 0 <= j < |rest| ensures rest[j].1 <= h {
      assert rest[j] in multiset(rest);
      if rest[j] != x {
        assert rest[j] in multiset(e);
        var m :| 0 <= m < |e| && e[m] == rest[j];
      }
    }
  }

  /** Put `x` in front of the first entry whose value does not exceed its own. */
  function InsertByValue(x: Entry, e: seq<Entry>): (r: seq<Entry>)
    requires SortedByValueDesc(e)
    ensures SortedByValueDesc(r)
    ensures multiset(r) == multiset(e) + multiset{x}
  {
    if |e| == 0 || e[0].1 <= x.1 then
      SortedCons(x, e);
      [x] + e
    else
      var rest := InsertByValue(x, e[1..]);
      assert e == [e[0]] + e[1..];
      BoundCarries(e[0].1, rest, e[1..], x);
      SortedCons(e[0], rest);
      [e[0]] + rest
  }

  /** Inserting an entry adds its key, and keeps the keys distinct when it is new. */
  lemma {:induction false} InsertAddsKey(x: Entry, e: seq<Entry>)
    requires SortedByValueDesc(e)
    ensures KeySet(InsertByValue(x, e)) == KeySet(e) + {x.0}
    ensures DistinctKeys(e) && x.0 !in KeySet(e) ==> DistinctKeys(InsertByValue(x, e))
  {
    var r := InsertByValue(x, e);
    if |e| == 0 || e[0].1 <= x.1 {
      KeySetCons(r);
      assert r[1..] == e;
      DistinctKeysCons(x, e);
    } else {
      var rest := InsertByValue(x, e[1..]);
      InsertAddsKey(x, e[1..]);
      assert r[1..] == rest;
      KeySetCons(r);
      KeySetCons(e);
      DistinctKeysTail(e);
      DistinctKeysCons(e[0], rest);
    }
  }

  /** Inserting an entry adds its value to the total and to its key's value. */
  lemma {:induction false} InsertAddsValue(x: Entry, e: seq<Entry>)
    requires SortedByValueDesc(e)
    ensures Total(InsertByValue(x, e)) == Total(e) + x.1
    ensures forall k :: ValueOf(InsertByValue(x, e), k) == ValueOf(e, k) + (if x.0 == k then x.1 else 0)
  {
    if |e| == 0 || e[0].1 <= x.1 {
      ConsSums(x, e);
    } else {
      InsertAddsValue(x, e[1..]);
      assert e == [e[0]] + e[1..];
      ConsSums(e[0], InsertByValue(x, e[1..]));
      ConsSums(e[0], e[1..]);
    }
  }

  /** `entries.sort((a, b) => b[1] - a[1])`: by value, largest first; the sort is stable,
      and insertion sort keeps entries of equal value in their original order. */
  function SortByValueDesc(e: seq<Entry>): (r: seq<Entry>)
    ensures SortedByValueDesc(r)
    ensures multiset(r) == multiset(e)
  {
    if |e| == 0 then []
    else
      assert e == [e[0]] + e[1..];
      InsertByValue(e[0], SortByValueDesc(e[1..]))
  }

  /** Sorting keeps the total and every key's value. */
  lemma {:induction false} SortKeepsSums(e: seq<Entry>)
    ensures Total(SortByValueDesc(e)) == Total(e)
    ensures forall k :: ValueOf(SortByValueDesc(e), k) == ValueOf(e, k)
  {
    if |e| > 0 {
      var rest := SortByValueDesc(e[1..]);
      assert SortByValueDesc(e) == InsertByValue(e[0], rest);
      SortKeepsSums(e[1..]);
      InsertAddsValue(e[0], rest);
    }
  }

  /** Sorting keeps the keys, and keeps them distinct. */
  lemma {:induction false} SortKeepsKeys(e: seq<Entry>)
    ensures KeySet(SortByValueDesc(e)) == KeySet(e)
    ensures DistinctKeys(e) ==> DistinctKeys(SortByValueDesc(e))
  {
    if |e| > 0 {
      SortKeepsKeys(e[1..]);
      KeySetCons(e);
      DistinctKeysTail(e);
      InsertAddsKey(e[0], SortByValueDesc(e[1..]));
    }
  }

  /** The per-key ledger: tally, then sort by value, largest first. */
  function Ledger(apps: seq<Application>, key: Application -> string): (r: seq<Entry>)
    ensures SortedByValueDesc(r) && DistinctKeys(r)
    ensures Total(r) == SumBy(apps, AmountOf)
    ensures KeySet(r) == KeysOf(apps, key)
  {
    SortKeepsSums(Tally([], apps, key));
    SortKeepsKeys(Tally([], apps, key));
    SortByValueDesc(Tally([], apps, key))
  }

  /** The ledger's value for `k` is the sum of the amounts of the records filed under `k`. */
  lemma LedgerValue(apps: seq<Application>, key: Application -> string, k: string)
    ensures ValueOf(Ledger(apps, key), k) == SumBy(Filter(apps, KeyIs(key, k)), AmountOf)
  {
    SortKeepsSums(Tally([], apps, key));
    TallyValue([], apps, key, k);
  }

  function IsType(t: TrainingType): Application -> bool {
    (a: Application) => a.trainingType == t
  }

  function InReport(from: Timestamp, to: Timestamp): Application -> bool {
    (a: Application) => Dashboard.InDateRange(a.createdAt, from, to)
  }

  datatype AuditReport = AuditReport(
    filteredApps: seq<Application>,
    internshipCount: nat,
    projectCount: nat,
    total: int,
    deptStats: seq<Entry>,
    categoryStats: seq<Entry>,
    avgPerStudent: real)

  /** `total / count`, or 0 for an empty report. */
  function Mean(total: int, n: nat): (m: real)
    ensures n == 0 ==> m == 0.0
    ensures n > 0 ==> m * (n as real) == total as real
  {
    if n > 0 then (total as real) / (n as real) else 0.0
  }

  /** Every record is either an internship or a project. */
  lemma TypesPartition(apps: seq<Application>)
    ensures |Filter(apps, IsType(Internship))| + |Filter(apps, IsType(Project))| == |apps|
    ensures SumBy(Filter(apps, IsType(Internship)), AmountOf) + SumBy(Filter(apps, IsType(Project)), AmountOf)
         == SumBy(apps, AmountOf)
  {
    FilterCongruent(apps, IsType(Project), Not(IsType(Internship)));
    FilterSplit(apps, IsType(Internship));
    SumBySplit(apps, IsType(Internship), AmountOf);
  }

  /** The two type filters count the positions holding each training type. */
  lemma TypeCounts(apps: seq<Application>)
    ensures |Filter(apps, IsType(Internship))| == |set i | 0 <= i < |apps| && apps[i].trainingType == Internship|
    ensures |Filter(apps, IsType(Project))| == |set i | 0 <= i < |apps| && apps[i].trainingType == Project|
  {
    CountIsPositions(apps, IsType(Internship));
    CountIsPositions(apps, IsType(Project));
    assert Positions(apps, IsType(Internship)) == set i | 0 <= i < |apps| && apps[i].trainingType == Internship;
    assert Positions(apps, IsType(Project)) == set i | 0 <= i < |apps| && apps[i].trainingType == Project;
  }

  /** No record is filed under an empty department or category. */
  lemma DefaultKeysAreNonEmpty(apps: seq<Application>)
    ensures "" !in KeysOf(apps, DeptKey) && "" !in KeysOf(apps, CategoryKey)
  {
  }

  /** `filteredApps`: the records created inside the report's range, bounds included, and
      every record without a creation date, in store order. */
  function ReportRecords(apps: seq<Application>, reportFrom: Timestamp, reportTo: Timestamp): (r: seq<Application>)
    ensures IsSubsequence(r, apps)
    ensures forall i :: 0 <= i < |r| ==> Dashboard.InDateRange(r[i].createdAt, reportFrom, reportTo)
    ensures forall i :: 0 <= i < |apps| && Dashboard.InDateRange(apps[i].createdAt, reportFrom, reportTo) ==> apps[i] in r
    ensures forall i :: 0 <= i < |apps| && apps[i].createdAt == Unset ==> apps[i] in r
    ensures forall x :: multiset(r)[x] == if Dashboard.InDateRange(x.createdAt, reportFrom, reportTo) then multiset(apps)[x] else 0
  {
    var r := Filter(apps, InReport(reportFrom, reportTo));
    FilterIsSubsequence(apps, InReport(reportFrom, reportTo));
    FilterMultiset(apps, InReport(reportFrom, reportTo));
    assert forall i :: 0 <= i < |r| ==> InReport(reportFrom, reportTo)(r[i]);
    assert forall i :: 0 <= i < |apps| ==> (InReport(reportFrom, reportTo)(apps[i]) <==> Dashboard.InDateRange(apps[i].createdAt, reportFrom, reportTo));
    r
  }

  /** Without a range, the report covers every record. */
  lemma UnboundedReportKeepsAll(apps: seq<Application>)
    ensures ReportRecords(apps, Unset, Unset) == apps
  {
    FilterKeepsAll(apps, InReport(Unset, Unset));
  }

  /** The `audit` memo of the financial report: the records in range, their counts by
      training type, their total and its mean, and the two ledgers. */
  function ComputeAudit(apps: seq<Application>, reportFrom: Timestamp, reportTo: Timestamp): (r: AuditReport)
    ensures r.filteredApps == ReportRecords(apps, reportFrom, reportTo)
    ensures r.internshipCount == |set i | 0 <= i < |r.filteredApps| && r.filteredApps[i].trainingType == Internship|
    ensures r.projectCount == |set i | 0 <= i < |r.filteredApps| && r.filteredApps[i].trainingType == Project|
    ensures r.internshipCount + r.projectCount == |r.filteredApps|
    ensures r.total == SumBy(r.filteredApps, AmountOf)
    ensures r.avgPerStudent == Mean(r.total, |r.filteredApps|)
  {
    var filtered := ReportRecords(apps, reportFrom, reportTo);
    var internship := Filter(filtered, IsType(Internship));
    var project := Filter(filtered, IsType(Project));
    var total := SumBy(internship, AmountOf) + SumBy(project, AmountOf);
    TypesPartition(filtered);
    TypeCounts(filtered);
    AuditReport(
      filtered, |internship|, |project|, total,
      Ledger(filtered, DeptKey), Ledger(filtered, CategoryKey),
      Mean(total, |filtered|))
  }

  /** Both ledgers account for the whole total, key by key: each key's value is the sum over
      the records filed under it. */
  lemma AuditLedgersBalance(apps: seq<Application>, reportFrom: Timestamp, reportTo: Timestamp)
    ensures var r := ComputeAudit(apps, reportFrom, reportTo);
      && Total(r.deptStats) == r.total && Total(r.categoryStats) == r.total
      && (forall k :: ValueOf(r.deptStats, k) == SumBy(Filter(r.filteredApps, KeyIs(DeptKey, k)), AmountOf))
      && (forall k :: ValueOf(r.categoryStats, k) == SumBy(Filter(r.filteredApps, KeyIs(CategoryKey, k)), AmountOf))
  {
    var r := ComputeAudit(apps, reportFrom, reportTo);
    forall k
      ensures ValueOf(r.deptStats, k) == SumBy(Filter(r.filteredApps, KeyIs(DeptKey, k)), AmountOf)
      ensures ValueOf(r.categoryStats, k) == SumBy(Filter(r.filteredApps, KeyIs(CategoryKey, k)), AmountOf)
    {
      LedgerValue(r.filteredApps, DeptKey, k);
      LedgerValue(r.filteredApps, CategoryKey, k);
    }
  }

  /** Both ledgers list each key once, largest value first, and the keys are exactly those of
      the records in range, with an empty department or category filed under its default. */
  lemma AuditLedgersShape(apps: seq<Application>, reportFrom: Timestamp, reportTo: Timestamp)
    ensures var r := ComputeAudit(apps, reportFrom, reportTo);
      && SortedByValueDesc(r.deptStats) && SortedByValueDesc(r.categoryStats)
      && DistinctKeys(r.deptStats) && DistinctKeys(r.categoryStats)
      && KeySet(r.deptStats) == KeysOf(r.filteredApps, DeptKey) && "" !in KeySet(r.deptStats)
      && KeySet(r.categoryStats) == KeysOf(r.filteredApps, CategoryKey) && "" !in KeySet(r.categoryStats)
  {
    DefaultKeysAreNonEmpty(ComputeAudit(apps, reportFrom, reportTo).filteredApps);
  }
}

=== FILE: dashboard.dfy ===
/** The administrator's derived views (components/AdminDashboard.tsx): the split into new
    and archived records, the two searches, the status counters and the attachment
    edits. */
module Dashboard {
  import opened Maybe
  import opened JsText
  import opened Seqs
  import opened Records
  import Store

  /** `7 * 24 * 60 * 60 * 1000`. */
  const SevenDaysMs := 604_800_000

  /** From midnight to `setHours(23, 59, 59, 999)` on the same day. */
  const EndOfDayMs := 86_399_999

  /** `now - createdAt <= SEVEN_DAYS_MS`, where an empty `createdAt` counts as 0 and an
      unparseable one as NaN, which fails every comparison. */
  predicate IsRecent(app: Application, now: int) {
    match app.createdAt
    case Unset => now - 0 <= SevenDaysMs
    case Invalid => false
    case At(t) => now - t <= SevenDaysMs
  }

  function RecentAt(now: int): Application -> bool {
    (a: Application) => IsRecent(a, now)
  }

  /** The `newData`/`oldData` memo: one pass over the records, pushing each onto the
      new list or the old list. */
  method SplitByRecency(apps: seq<Application>, now: int) returns (newData: seq<Application>, oldData: seq<Application>)
    ensures newData == Filter(apps, RecentAt(now))
    ensures oldData == Filter(apps, Not(RecentAt(now)))
    ensures |newData| + |oldData| == |apps|
    ensures multiset(newData) + multiset(oldData) == multiset(apps)
    ensures IsSubsequence(newData, apps) && IsSubsequence(oldData, apps)
  {
    newData, oldData := [], [];
    for i := 0 to |apps|
      invariant newData == Filter(apps[..i], RecentAt(now))
      invariant oldData == Filter(apps[..i], Not(RecentAt(now)))
    {
      FilterPrefixStep(apps, i, RecentAt(now));
      FilterPrefixStep(apps, i, Not(RecentAt(now)));
      assert RecentAt(now)(apps[i]) == IsRecent(apps[i], now);
      assert Not(RecentAt(now))(apps[i]) == !IsRecent(apps[i], now);
      if IsRecent(apps[i], now) {
        newData := newData + [apps[i]];
      } else {
        oldData := oldData + [apps[i]];
      }
    }
    assert apps[..|apps|] == apps;
    SplitFacts(apps, RecentAt(now));
  }

  /** A filter and its complement share out the input between them, each in order. */
  lemma SplitFacts(apps: seq<Application>, p: Application -> bool)
    ensures |Filter(apps, p)| + |Filter(apps, Not(p))| == |apps|
    ensures multiset(Filter(apps, p)) + multiset(Filter(apps, Not(p))) == multiset(apps)
    ensures IsSubsequence(Filter(apps, p), apps) && IsSubsequence(Filter(apps, Not(p)), apps)
  {
    FilterSplit(apps, p);
    FilterIsSubsequence(apps, p);
    FilterIsSubsequence(apps, Not(p));
  }

  /** The seven-day window is inclusive, future timestamps count as new, an unparseable
      timestamp is old, and a missing one is new only while `now` itself lies within seven
      days of the epoch. */
  lemma RecencyWindow(app: Application, now: int)
    ensures app.createdAt.At? && app.createdAt.ms == now - 604_800_000 ==> IsRecent(app, now)
    ensures app.createdAt.At? && app.createdAt.ms < now - 604_800_000 ==> !IsRecent(app, now)
    ensures app.createdAt.At? && app.createdAt.ms >= now ==> IsRecent(app, now)
    ensures app.createdAt == Invalid ==> !IsRecent(app, now)
    ensures app.createdAt == Unset ==> (IsRecent(app, now) <==> now <= 604_800_000)
  {
  }

  // ---------------------------------------------------------------------------
  // Searches

  /** `filteredNewData`'s test for an already lower-cased term: id, application number or
      student name contains it, ignoring case. */
  predicate MatchesNewSearch(app: Application, term: string) {
    || Contains(ToLower(app.id), term)
    || Contains(ToLower(app.applicationNo), term)
    || Contains(ToLower(app.studentName), term)
  }

  function NewSearch(term: string): Application -> bool {
    (a: Application) => MatchesNewSearch(a, term)
  }

  /** `filteredNewData`: the new records, narrowed by the search box unless it is empty. */
  function FilteredNewData(newData: seq<Application>, searchTerm: string): (r: seq<Application>)
    ensures searchTerm == "" ==> r == newData
    ensures IsSubsequence(r, newData)
    ensures forall i :: 0 <= i < |r| ==> MatchesNewSearch(r[i], ToLower(searchTerm))
    ensures forall i :: 0 <= i < |newData| && MatchesNewSearch(newData[i], ToLower(searchTerm)) ==> newData[i] in r
    ensures forall x :: multiset(r)[x] == if MatchesNewSearch(x, ToLower(searchTerm)) then multiset(newData)[x] else 0
  {
    if searchTerm == "" then
      FilterKeepsAll(newData, (_: Application) => true);
      FilterIsSubsequence(newData, (_: Application) => true);
      assert ToLower(searchTerm) == "";
      assert forall x: Application :: "" <= ToLower(x.id) && Contains(ToLower(x.id), "");
      newData
    else
      FilterIsSubsequence(newData, NewSearch(ToLower(searchTerm)));
      FilterMultiset(newData, NewSearch(ToLower(searchTerm)));
      Filter(newData, NewSearch(ToLower(searchTerm)))
  }

  /** The empty-term shortcut returns what filtering with the empty term would: every
      text contains the empty string. */
  lemma EmptySearchKeepsEverything(newData: seq<Application>)
    ensures Filter(newData, NewSearch("")) == newData
  {
    forall i | 0 <= i < |newData|
      ensures MatchesNewSearch(newData[i], "")
    {
      assert "" <= ToLower(newData[i].id);
    }
    FilterKeepsAll(newData, NewSearch(""));
  }

  /** Searching the search result again with the same term changes nothing. */
  lemma NewSearchIdempotent(newData: seq<Application>, searchTerm: string)
    ensures FilteredNewData(FilteredNewData(newData, searchTerm), searchTerm) == FilteredNewData(newData, searchTerm)
  {
    if searchTerm != "" {
      FilterIdempotent(newData, NewSearch(ToLower(searchTerm)));
    }
  }

  /** The date test shared by the archive list and the financial audit: records with no
      or an unparseable creation time always pass; otherwise a set `from` day excludes
      earlier records and a set `to` day excludes records after 23:59:59.999 of that day.
      A bound that does not parse compares as NaN and excludes nothing. */
  predicate InDateRange(created: Timestamp, from: Timestamp, to: Timestamp) {
    match created
    case Unset => true
    case Invalid => true
    case At(c) =>
      && (match from case At(f) => !(c < f) case _ => true)
      && (match to case At(t) => !(c > t + EndOfDayMs) case _ => true)
  }

  /** Both bounds are inclusive: a record created at the first instant of `from` or at
      the last millisecond of `to` passes, one a millisecond outside does not. */
  lemma DateRangeIsInclusive(c: int, f: int, t: int)
    ensures InDateRange(At(c), At(f), At(t)) <==> f <= c <= t + 86_399_999
    ensures InDateRange(At(c), Unset, Unset) && InDateRange(Unset, At(f), At(t))
  {
  }

  /** `filteredOldData`'s text test: the empty term, or the id or application number
      contains the term, ignoring case. The student name is not searched here. */
  predicate MatchesOldSearch(app: Application, term: string) {
    || term == ""
    || Contains(ToLower(app.id), ToLower(term))
    || Contains(ToLower(app.applicationNo), ToLower(term))
  }

  predicate OldDataMatch(app: Application, term: string, from: Timestamp, to: Timestamp) {
    MatchesOldSearch(app, term) && InDateRange(app.createdAt, from, to)
  }

  function OldFilter(term: string, from: Timestamp, to: Timestamp): Application -> bool {
    (a: Application) => OldDataMatch(a, term, from, to)
  }

  /** `filteredOldData`: the archived records that pass both the text and the date test,
      in their original order. */
  function FilteredOldData(oldData: seq<Application>, term: string, from: Timestamp, to: Timestamp): (r: seq<Application>)
    ensures IsSubsequence(r, oldData)
    ensures forall i :: 0 <= i < |r| ==> MatchesOldSearch(r[i], term) && InDateRange(r[i].createdAt, from, to)
    ensures forall i :: 0 <= i < |oldData| && MatchesOldSearch(oldData[i], term) && InDateRange(oldData[i].createdAt, from, to) ==>
              oldData[i] in r
    ensures forall x :: multiset(r)[x] == if OldDataMatch(x, term, from, to) then multiset(oldData)[x] else 0
  {
    FilterIsSubsequence(oldData, OldFilter(term, from, to));
    FilterMultiset(oldData, OldFilter(term, from, to));
    Filter(oldData, OldFilter(term, from, to))
  }

  /** The archive search looks at the id and application number only. */
  lemma OldSearchIgnoresName(app: Application, name: string, term: string)
    ensures MatchesOldSearch(app.(studentName := name), term) == MatchesOldSearch(app, term)
  {
  }

  /** Undated archived records survive any date bounds; only the text test can drop them. */
  lemma UndatedOldRecordsKept(oldData: seq<Application>, from: Timestamp, to: Timestamp)
    requires forall i :: 0 <= i < |oldData| ==> oldData[i].createdAt == Unset
    ensures FilteredOldData(oldData, "", from, to) == oldData
  {
    FilterKeepsAll(oldData, OldFilter("", from, to));
  }

  // ---------------------------------------------------------------------------
  // Status counters

  datatype Stats = Stats(total: nat, pending: nat, approved: nat, ongoing: nat)

  function HasStatus(s: Status): Application -> bool {
    (a: Application) => a.status == s
  }

  /** Approved, and `today` (a midnight) lies between the parsed from and to dates,
      inclusive; a date that does not parse fails the comparison. */
  predicate IsOngoing(app: Application, today: int) {
    && app.status == Approved
    && app.fromDate.At? && app.toDate.At?
    && app.fromDate.ms <= today <= app.toDate.ms
  }

  function OngoingOn(today: int): Application -> bool {
    (a: Application) => IsOngoing(a, today)
  }

  /** The dashboard's `stats` counters: how many records there are, how many are pending,
      how many approved, and how many approved ones are under way on `today`. */
  function ComputeStats(apps: seq<Application>, today: int): (r: Stats)
    ensures r.total == |apps|
    ensures r.pending == |set i | 0 <= i < |apps| && apps[i].status == Pending|
    ensures r.approved == |set i | 0 <= i < |apps| && apps[i].status == Approved|
    ensures r.ongoing == |set i | 0 <= i < |apps| && IsOngoing(apps[i], today)|
    ensures r.pending + r.approved <= r.total
    ensures r.ongoing <= r.approved
  {
    CountDisjoint(apps, HasStatus(Pending), HasStatus(Approved));
    CountMonotone(apps, OngoingOn(today), HasStatus(Approved));
    CountIsPositions(apps, HasStatus(Pending));
    CountIsPositions(apps, HasStatus(Approved));
    CountIsPositions(apps, OngoingOn(today));
    assert Positions(apps, HasStatus(Pending)) == set i | 0 <= i < |apps| && apps[i].status == Pending;
    assert Positions(apps, HasStatus(Approved)) == set i | 0 <= i < |apps| && apps[i].status == Approved;
    assert Positions(apps, OngoingOn(today)) == set i | 0 <= i < |apps| && IsOngoing(apps[i], today);
    Stats(|apps|, Count(apps, HasStatus(Pending)), Count(apps, HasStatus(Approved)), Count(apps, OngoingOn(today)))
  }

  /** An accepted new record raises the total by one and exactly the counters its status
      and dates qualify it for. */
  lemma StatsAfterAdd(apps: seq<Application>, app: Application, today: int)
    requires Store.HandleAdd(apps, app).Added?
    ensures var before := ComputeStats(apps, today);
            ComputeStats(Store.StoreAfterAdd(apps, app), today) ==
              Stats(before.total + 1,
                    before.pending + (if app.status == Pending then 1 else 0),
                    before.approved + (if app.status == Approved then 1 else 0),
                    before.ongoing + (if IsOngoing(app, today) then 1 else 0))
  {
    var after := apps + [app];
    assert Store.StoreAfterAdd(apps, app) == after;
    FilterSnoc(apps, app, HasStatus(Pending));
    FilterSnoc(apps, app, HasStatus(Approved));
    FilterSnoc(apps, app, OngoingOn(today));
    assert ComputeStats(after, today) ==
      Stats(|after|, Count(after, HasStatus(Pending)), Count(after, HasStatus(Approved)), Count(after, OngoingOn(today)));
    assert ComputeStats(apps, today) ==
      Stats(|apps|, Count(apps, HasStatus(Pending)), Count(apps, HasStatus(Approved)), Count(apps, OngoingOn(today)));
  }

  /** Pending and approved account for every record exactly when none is rejected. */
  lemma StatsCoverAllWithoutRejections(apps: seq<Application>, today: int)
    ensures (forall i :: 0 <= i < |apps| ==> apps[i].status != Rejected) ==>
              ComputeStats(apps, today).pending + ComputeStats(apps, today).approved == |apps|
  {
    if forall i :: 0 <= i < |apps| ==> apps[i].status != Rejected {
      FilterSplit(apps, HasStatus(Pending));
      PendingComplementIsApproved(apps);
    }
  }

  lemma {:induction false} PendingComplementIsApproved(apps: seq<Application>)
    requires forall i :: 0 <= i < |apps| ==> apps[i].status != Rejected
    ensures Filter(apps, Not(HasStatus(Pending))) == Filter(apps, HasStatus(Approved))
  {
    if |apps| > 0 {
      PendingComplementIsApproved(apps[1..]);
    }
  }

  // ---------------------------------------------------------------------------
  // Attachments

  /** `activeApp.documents || {}`. */
  function Documents(app: Application): map<string, string> {
    app.documents.GetOr(map[])
  }

  /** The record with `documents[docType]` set to `data`. */
  function WithDocument(app: Application, docType: string, data: string): (r: Application)
    ensures docType in Documents(r) && Documents(r)[docType] == data
    ensures forall k :: k != docType ==> (k in Documents(r) <==> k in Documents(app))
    ensures forall k :: k != docType && k in Documents(app) ==> Documents(r)[k] == Documents(app)[k]
    ensures r.(documents := app.documents) == app
  {
    app.(documents := Some(Documents(app)[docType := data]))
  }

  /** The record with `documents[docType]` deleted. */
  function WithoutDocument(app: Application, docType: string): (r: Application)
    requires app.documents.Some?
    ensures docType !in Documents(r)
    ensures forall k :: k != docType ==> (k in Documents(r) <==> k in Documents(app))
    ensures forall k :: k != docType && k in Documents(app) ==> Documents(r)[k] == Documents(app)[k]
    ensures r.(documents := app.documents) == app
  {
    app.(documents := Some(app.documents.value - {docType}))
  }

  /** Removing what was just uploaded restores the record, when the type was not there
      before and the record already had a document map. */
  lemma UploadThenRemove(app: Application, docType: string, data: string)
    requires app.documents.Some? && docType !in app.documents.value
    ensures WithoutDocument(WithDocument(app, docType, data), docType) == app
  {
    assert app.documents.value[docType := data] - {docType} == app.documents.value;
  }

  /** The store together with the record open in the document view. */
  datatype DocumentView = DocumentView(apps: seq<Application>, activeApp: Option<Application>)

  /** `handleFileUpload`: with a chosen file (its data URL, as the reader produced it) and
      an open record, store the file under `docType`, push the record through the update
      handler and keep it open; otherwise nothing happens. */
  function HandleFileUpload(v: DocumentView, docType: string, file: Option<string>): (r: DocumentView)
    ensures file.None? || v.activeApp.None? ==> r == v
    ensures file.Some? && v.activeApp.Some? ==>
              && r.activeApp.Some?
              && r.activeApp.value.(documents := v.activeApp.value.documents) == v.activeApp.value
              && docType in Documents(r.activeApp.value) && Documents(r.activeApp.value)[docType] == file.value
              && r.apps == Store.UpdateById(v.apps, r.activeApp.value)
    ensures file.Some? && v.activeApp.Some? ==>
              forall k :: k != docType ==>
                && (k in Documents(r.activeApp.value) <==> k in Documents(v.activeApp.value))
                && (k in Documents(v.activeApp.value) ==> Documents(r.activeApp.value)[k] == Documents(v.activeApp.value)[k])
  {
    if file.Some? && v.activeApp.Some? then
      var updated := WithDocument(v.activeApp.value, docType, file.value);
      DocumentView(Store.UpdateById(v.apps, updated), Some(updated))
    else v
  }

  /** `removeFile`: with an open record that has a document map (even an empty one),
      delete `docType` from it and push the record through the update handler. */
  function HandleRemoveFile(v: DocumentView, docType: string): (r: DocumentView)
    ensures v.activeApp.None? || v.activeApp.value.documents.None? ==> r == v
    ensures v.activeApp.Some? && v.activeApp.value.documents.Some? ==>
              && r.activeApp.Some?
              && r.activeApp.value.(documents := v.activeApp.value.documents) == v.activeApp.value
              && docType !in Documents(r.activeApp.value)
              && r.apps == Store.UpdateById(v.apps, r.activeApp.value)
    ensures v.activeApp.Some? && v.activeApp.value.documents.Some? ==>
              forall k :: k != docType ==>
                && (k in Documents(r.activeApp.value) <==> k in Documents(v.activeApp.value))
                && (k in Documents(v.activeApp.value) ==> Documents(r.activeApp.value)[k] == Documents(v.activeApp.value)[k])
  {
    if v.activeApp.Some? && v.activeApp.value.documents.Some? then
      var updated := WithoutDocument(v.activeApp.value, docType);
      DocumentView(Store.UpdateById(v.apps, updated), Some(updated))
    else v
  }
}

=== FILE: form.dfy ===
/** The registration form (components/StudentForm.tsx): its blank record, the id effect
    that stamps a new record with a gate pass id, an application number and a group id,
    validation before the undertaking page, final submission into the store, and the two
    ways to carry on after a success: a fresh group, or another student of the same one. */
module Form {
  import opened Maybe
  import opened JsText
  import opened Records
  import opened NumberBox
  import Identifiers
  import Store

  datatype Mode = AddMode | EditMode

  /** `page` 1 and 2. */
  datatype Page = MainForm | Undertaking

  /** The component's state. `activeGroupId` is `null` or a non-empty group id;
      `data` is the record being edited, with the fields the form leaves undefined held
      as empty strings (both are falsy to every test the core makes). */
  datatype FormState = FormState(
    page: Page,
    activeGroupId: Option<string>,
    isSuccess: bool,
    data: Application,
    collegeSearch: string,
    isOtherCollege: bool)

  /** `getInitialState(groupId)`, created at instant `now`. */
  function BlankApplication(groupId: Option<string>, now: int): (r: Application)
    ensures r.id == "" && r.applicationNo == "" && r.createdAt == At(now)
    ensures r.groupId == (if groupId.Some? then groupId.value else "")
    ensures Personal(r) == BlankPersonal
    ensures r.trainingType == Internship && r.days == 0 && r.fromDate == Unset && r.toDate == Unset
    ensures r.status == Pending && r.iomTraining == IomToRespectiveDept && r.documents == None
    ensures Group(r) == GroupPart(r.groupId, Internship, "", Unset, 0, Unset, IomToRespectiveDept, "", "", "", "", "", "")
    ensures Office(r) == OfficePart("", "", "", "", "", Pending, "", "", "", "", None)
  {
    Application(
      id := "", applicationNo := "", groupId := groupId.GetOr(""), studentName := "",
      age := "", dob := "", identificationMark := "", course := "", specialization := "",
      collegeName := "", days := 0, fromDate := Unset, toDate := Unset, deptIPT := "",
      trainingType := Internship, passNo := "", gender := Male, fatherName := "", year := "",
      mobileNo := "", emergencyNo := "", collegeAddress := "", residentialAddress := "",
      amount := "", ddNumber := "", ddDate := "", ddBank := "", paymentDate := "",
      status := Pending, spnoEmployee := "", paymentMethod := "", category := "",
      signatureByName := "", iomTraining := IomToRespectiveDept, referralNo := "",
      referralDesignation := "", referralPersonContact := "", referralDepartment := "",
      createdAt := At(now), letterNo := "", letterDate := "", documents := None)
  }

  /** The state the component mounts with: the record to edit, or a blank one; the college
      search box shows the record's college, which counts as "other" when it is not in the
      `colleges` list. */
  function OpenForm(initialData: Option<Application>, now: int, colleges: seq<string>): (r: FormState)
    ensures r.page == MainForm && r.activeGroupId == None && !r.isSuccess
    ensures initialData.Some? ==> r.data == initialData.value
    ensures initialData.None? ==> r.data == BlankApplication(None, now)
    ensures r.collegeSearch == r.data.collegeName
    ensures r.isOtherCollege <==> r.data.collegeName != "" && r.data.collegeName !in colleges
  {
    match initialData
    case Some(d) =>
      FormState(MainForm, None, false, d, d.collegeName, d.collegeName != "" && d.collegeName !in colleges)
    case None =>
      FormState(MainForm, None, false, BlankApplication(None, now), "", false)
  }

  // ---------------------------------------------------------------------------
  // Id allocation

  /** The id effect: in add mode, a record without an id gets the next gate pass id, a
      fresh application number drawn from `rolls`, and the active group's id, or `token`
      (the random base-36 group id) when no group is active. Otherwise nothing changes. */
  function InitializeIds(mode: Mode, s: FormState, apps: seq<Application>, rolls: seq<Identifiers.Roll>, token: string): (r: FormState)
    requires mode == AddMode && s.data.id == "" ==> Identifiers.HasFreshRoll(ApplicationNos(apps), rolls)
    ensures mode == EditMode || s.data.id != "" ==> r == s
    ensures mode == AddMode && s.data.id == "" ==>
      && r.data.id == Identifiers.NextGatePassId(Ids(apps))
      && r.data.applicationNo !in ApplicationNos(apps)
      && |r.data.applicationNo| == Identifiers.AppNoLength
      && r.data.groupId == (if s.activeGroupId.Some? && s.activeGroupId.value != "" then s.activeGroupId.value else token)
      && Personal(r.data) == Personal(s.data) && Office(r.data) == Office(s.data)
      && r.data.createdAt == s.data.createdAt
      && r == s.(data := s.data.(id := r.data.id, applicationNo := r.data.applicationNo, groupId := r.data.groupId))
  {
    if mode == AddMode && s.data.id == "" then
      var gId := if s.activeGroupId.Some? && s.activeGroupId.value != "" then s.activeGroupId.value else token;
      s.(data := s.data.(
        id := Identifiers.NextGatePassId(Ids(apps)),
        applicationNo := Identifiers.UniqueApplicationNo(ApplicationNos(apps), rolls),
        groupId := gId))
    else s
  }

  // ---------------------------------------------------------------------------
  // Validation

  /** The rules `validateForm` checks, in the order it checks them. */
  datatype ValidationError =
    | MissingPersonalDetails
    | Underage
    | SameContactNumbers
    | MissingEducationalDetails
    | MissingTrainingDates

  function Rank(e: ValidationError): nat {
    match e
    case MissingPersonalDetails => 0
    case Underage => 1
    case SameContactNumbers => 2
    case MissingEducationalDetails => 3
    case MissingTrainingDates => 4
  }

  /** The alert shown for each rule. */
  function Message(e: ValidationError): string {
    match e
    case MissingPersonalDetails => "Please fill required personal details."
    case Underage => "Age must be 18 or above."
    case SameContactNumbers => "Mobile and Emergency numbers must be different."
    case MissingEducationalDetails => "Please fill required educational details."
    case MissingTrainingDates => "Please specify training dates."
  }

  /** The age box is a number input, so `handleChange` stores `Number(value)`. That is
      0, and so falsy, for an empty box, for text the box refuses (the browser reports it
      as empty), and for every spelling of zero. */
  predicate AgeMissing(age: string) {
    var v := FloatValue(age);
    v.None? || v.value.mantissa == 0
  }

  /** `parseInt(age || '0') < 18` on the stored number: a falsy age reads as `'0'`, any
      other as `parseInt(String(age))`. */
  predicate UnderEighteen(age: string) {
    var v := FloatValue(age);
    v.None? || ParseIntOfNumber(v.value) < 18
  }

  /** Whether record `d` breaks rule `e`, taken on its own. */
  predicate Violates(d: Application, e: ValidationError) {
    match e
    case MissingPersonalDetails => d.studentName == "" || AgeMissing(d.age) || d.mobileNo == ""
    case Underage => UnderEighteen(d.age)
    case SameContactNumbers => d.mobileNo == d.emergencyNo
    case MissingEducationalDetails => d.collegeName == "" || d.course == ""
    case MissingTrainingDates => d.fromDate == Unset || d.days == 0
  }

  /** The rules checked one after another against `broken`, stopping at the first that
      is broken. */
  function FirstBroken(broken: ValidationError -> bool): (r: Option<ValidationError>)
    ensures r.None? <==> forall e :: !broken(e)
    ensures r.Some? ==> broken(r.value) && forall e :: Rank(e) < Rank(r.value) ==> !broken(e)
  {
    if broken(MissingPersonalDetails) then Some(MissingPersonalDetails)
    else if broken(Underage) then Some(Underage)
    else if broken(SameContactNumbers) then Some(SameContactNumbers)
    else if broken(MissingEducationalDetails) then Some(MissingEducationalDetails)
    else if broken(MissingTrainingDates) then Some(MissingTrainingDates)
    else
      NoRuleLeft(broken);
      None
  }

  /** The five rules are all the rules there are. */
  lemma NoRuleLeft(broken: ValidationError -> bool)
    requires !broken(MissingPersonalDetails) && !broken(Underage) && !broken(SameContactNumbers)
    requires !broken(MissingEducationalDetails) && !broken(MissingTrainingDates)
    ensures forall e :: !broken(e)
  {
    forall e
      ensures !broken(e)
    {
      match e
      case MissingPersonalDetails =>
      case Underage =>
      case SameContactNumbers =>
      case MissingEducationalDetails =>
      case MissingTrainingDates =>
    }
  }

  /** `validateForm`: no error exactly when every rule holds; otherwise the first rule,
      in checking order, that the record breaks. */
  function ValidateForm(d: Application): (r: Option<ValidationError>)
    ensures r.None? <==> forall e :: !Violates(d, e)
    ensures r.Some? ==> Violates(d, r.value) && forall e :: Rank(e) < Rank(r.value) ==> !Violates(d, e)
  {
    FirstBroken((e: ValidationError) => Violates(d, e))
  }

  /** A record that passes validation is filled in, and its age is a number the box
      accepts, from 18 up to (not including) 10^21. */
  lemma ValidRecordIsComplete(d: Application)
    requires ValidateForm(d).None?
    ensures d.studentName != "" && d.age != "" && d.mobileNo != "" && d.mobileNo != d.emergencyNo
    ensures d.collegeName != "" && d.course != "" && d.fromDate != Unset && d.days != 0
    ensures !AgeMissing(d.age)
    ensures FloatValue(d.age).Some? && !FloatValue(d.age).value.negative
    ensures !MagnitudeBelow(FloatValue(d.age).value, 18) && MagnitudeBelow(FloatValue(d.age).value, PlainLimit)
  {
    assert !Violates(d, MissingPersonalDetails);
    assert !Violates(d, SameContactNumbers) && !Violates(d, MissingEducationalDetails);
    assert !Violates(d, MissingTrainingDates);
    assert !Violates(d, Underage);
    AgeRuleIsThreshold(d.age);
  }

  /** Past the missing-details rule, the age rule is a threshold on the number itself:
      it refuses a negative age, one below 18, and one of 10^21 or more, which `String`
      writes in exponent notation so that `parseInt` reads only its first digit. */
  lemma AgeRuleIsThreshold(age: string)
    requires !AgeMissing(age)
    ensures var v := FloatValue(age).value;
            UnderEighteen(age) <==> v.negative || MagnitudeBelow(v, 18) || !MagnitudeBelow(v, PlainLimit)
  {
    ParseIntThreshold(FloatValue(age).value, 18);
  }

  /** A whole-number age typed as plain digits is refused as under age exactly when it is
      below 18 or at least 10^21. */
  lemma WholeNumberAge(d: Application, n: nat)
    requires n > 0 && d.age == NatToString(n)
    ensures !Violates(d, MissingPersonalDetails) <==> d.studentName != "" && d.mobileNo != ""
    ensures Violates(d, Underage) <==> n < 18 || n >= PlainLimit
  {
    FloatValueOfNat(n);
    var v := Decimal(false, n, 0);
    assert FloatValue(d.age) == Some(v);
    assert !AgeMissing(d.age);
    AgeRuleIsThreshold(d.age);
    assert MagnitudeBelow(v, 18) <==> n < 18;
    assert MagnitudeBelow(v, PlainLimit) <==> n < PlainLimit;
  }

  /** An age typed with an exponent is read as the number it denotes: `2e1` is 20 and
      passes the age rule. */
  lemma ExponentAgePasses(d: Application)
    requires d.age == "2e1"
    ensures !AgeMissing(d.age) && !Violates(d, Underage)
  {
    TwoEOneValue(d.age);
    var v := Decimal(false, 2, 1);
    assert FloatValue(d.age) == Some(v);
    assert ParseIntOfNumber(v) == 20;
  }

  /** `1.8e1` is 18 and passes the age rule. */
  lemma FractionalExponentAgePasses(d: Application)
    requires d.age == "1.8e1"
    ensures !AgeMissing(d.age) && !Violates(d, Underage)
  {
    OnePointEightEOneValue(d.age);
    var v := Decimal(false, 18, 0);
    assert FloatValue(d.age) == Some(v);
    ParseIntOfWholeNumber(18);
  }

  /** An age with a fraction is cut to its whole part: `17.9` reads as 17 and is refused
      as under age. */
  lemma FractionalAgeIsTruncated(d: Application)
    requires d.age == "17.9"
    ensures !AgeMissing(d.age) && Violates(d, Underage)
  {
    SeventeenPointNineValue(d.age);
    var v := Decimal(false, 179, -1);
    assert FloatValue(d.age) == Some(v);
    assert ParseIntOfNumber(v) == 17;
  }

  /** `1e21` is written back as `"1e+21"`, which `parseInt` reads as 1: the age rule
      refuses it. */
  lemma HugeAgeReadsAsItsFirstDigit(d: Application)
    requires d.age == "1e21"
    ensures !AgeMissing(d.age) && Violates(d, Underage)
  {
    OneETwentyOneValue(d.age);
    PlainLimitIsShift();
  }

  /** `0.0` is zero too, and counts as missing like `0`. */
  lemma ZeroWithFractionIsMissing(d: Application)
    requires d.age == "0.0"
    ensures ValidateForm(d) == Some(MissingPersonalDetails)
  {
    ZeroPointZeroValue(d.age);
    assert AgeMissing(d.age);
  }

  /** Text the number box refuses, such as `abc`, ` 20` or `+20`, leaves the box empty,
      so the form asks for the personal details. */
  lemma RefusedAgeTextIsMissing(d: Application)
    requires d.age != "" && !IsDigit(d.age[0]) && d.age[0] != '-' && d.age[0] != '.'
    ensures ValidateForm(d) == Some(MissingPersonalDetails)
  {
    assert LeadingDigits(d.age) == [];
    assert AgeMissing(d.age);
  }

  /** A typed age of zero, with or without leading zeros or a minus sign, counts as
      missing: the form asks for the personal details rather than reporting the student
      as under age. */
  lemma ZeroAgeIsMissing(d: Application, zeros: nat)
    requires d.age == seq(zeros + 1, _ => '0') || d.age == "-" + seq(zeros + 1, _ => '0')
    ensures ValidateForm(d) == Some(MissingPersonalDetails)
  {
    var z := seq(zeros + 1, _ => '0');
    assert AllDigits(z);
    LeadingDigitsOf(z, []);
    LeadingZerosIgnored(z, []);
    assert z + [] == z;
    if d.age != z {
      assert d.age[1..] == z;
    }
    assert AgeMissing(d.age);
  }

  /** A blank form is refused for its missing personal details. */
  lemma BlankFormIsRefused(groupId: Option<string>, now: int)
    ensures ValidateForm(BlankApplication(groupId, now)) == Some(MissingPersonalDetails)
  {
  }

  /** `handleNextPage`: on an error the page stays and the error's alert is returned;
      otherwise the undertaking page opens. */
  function NextPage(s: FormState): (r: (FormState, Option<ValidationError>))
    ensures r.1 == ValidateForm(s.data)
    ensures r.1.Some? ==> r.0 == s
    ensures r.1.None? ==> r.0 == s.(page := Undertaking)
  {
    var err := ValidateForm(s.data);
    if err.Some? then (s, err) else (s.(page := Undertaking), None)
  }

  /** The undertaking page is reached only from a record that breaks no rule. */
  lemma UndertakingNeedsValidRecord(s: FormState)
    requires s.page == MainForm && NextPage(s).0.page == Undertaking
    ensures forall e :: !Violates(s.data, e)
  {
  }

  // ---------------------------------------------------------------------------
  // Submission and what follows

  /** `handleFinalSubmit`: hand the record to the store (`handleAddApplication` in add
      mode, `handleUpdateApplication` in edit mode), remember its group, and show the
      success screen. The form sets `isSuccess` without looking at whether the store
      accepted the record. */
  function FinalSubmit(mode: Mode, s: FormState, apps: seq<Application>): (r: (FormState, seq<Application>))
    ensures mode == AddMode ==> r.1 == Store.StoreAfterAdd(apps, s.data)
    ensures mode == EditMode ==> r.1 == Store.UpdateById(apps, s.data)
    ensures r.0.isSuccess && r.0.data == s.data && r.0.page == s.page
    ensures r.0.activeGroupId.Some? <==> s.data.groupId != ""
    ensures r.0.activeGroupId.Some? ==> r.0.activeGroupId.value == s.data.groupId
    ensures r.0.collegeSearch == s.collegeSearch && r.0.isOtherCollege == s.isOtherCollege
  {
    var stored := match mode
      case AddMode => Store.StoreAfterAdd(apps, s.data)
      case EditMode => Store.UpdateById(apps, s.data);
    var active := if s.data.groupId == "" then None else Some(s.data.groupId);
    (s.(activeGroupId := active, isSuccess := true), stored)
  }

  /** In add mode the record joins the store unless its gate pass id collides. */
  lemma SubmitAppendsUnlessDuplicate(s: FormState, apps: seq<Application>)
    ensures !Store.IsIdDuplicate(apps, s.data.id) ==> FinalSubmit(AddMode, s, apps).1 == apps + [s.data]
    ensures Store.IsIdDuplicate(apps, s.data.id) ==> FinalSubmit(AddMode, s, apps).1 == apps
  {
  }

  /** A record refused as a duplicate still leads to the success screen. */
  lemma SuccessShownAfterDuplicate(s: FormState, apps: seq<Application>)
    requires Store.IsIdDuplicate(apps, s.data.id)
    ensures FinalSubmit(AddMode, s, apps).0.isSuccess
    ensures FinalSubmit(AddMode, s, apps).1 == apps
  {
  }

  /** `resetForNewGroup`: forget the group and start from a blank record. */
  function ResetForNewGroup(s: FormState, now: int): (r: FormState)
    ensures r.activeGroupId == None && !r.isSuccess && r.page == MainForm
    ensures r.data == BlankApplication(None, now)
    ensures r.collegeSearch == "" && !r.isOtherCollege
  {
    FormState(MainForm, None, false, BlankApplication(None, now), "", false)
  }

  /** `addNewStudentToGroup`: a new gate pass id and application number, the student's own
      details blanked and a new creation time, while the group's training and referral
      details and the office fields carry over. */
  function AddNewStudentToGroup(s: FormState, apps: seq<Application>, rolls: seq<Identifiers.Roll>, now: int): (r: FormState)
    requires Identifiers.HasFreshRoll(ApplicationNos(apps), rolls)
    ensures r.data.id == Identifiers.NextGatePassId(Ids(apps))
    ensures r.data.applicationNo !in ApplicationNos(apps) && |r.data.applicationNo| == Identifiers.AppNoLength
    ensures Personal(r.data) == BlankPersonal
    ensures Group(r.data) == Group(s.data) && Office(r.data) == Office(s.data)
    ensures r.data.createdAt == At(now)
    ensures r.activeGroupId == s.activeGroupId
    ensures r.page == MainForm && !r.isSuccess && r.collegeSearch == "" && !r.isOtherCollege
  {
    var d := s.data.(
      id := Identifiers.NextGatePassId(Ids(apps)),
      applicationNo := Identifiers.UniqueApplicationNo(ApplicationNos(apps), rolls),
      studentName := "", fatherName := "", age := "", dob := "", identificationMark := "",
      gender := Male, mobileNo := "", emergencyNo := "", residentialAddress := "",
      category := "", course := "", specialization := "", collegeName := "", year := "",
      collegeAddress := "", createdAt := At(now));
    FormState(MainForm, s.activeGroupId, false, d, "", false)
  }

  /** Submitting a student and then adding another one of the same group: the next record
      keeps the group id and every shared detail, the group stays active, and the id
      effect leaves the next record alone because it already has an id. */
  lemma SiblingsShareGroupDetails(
    s: FormState, apps: seq<Application>, rolls: seq<Identifiers.Roll>, now: int, token: string)
    requires s.data.groupId != ""
    requires Identifiers.HasFreshRoll(ApplicationNos(FinalSubmit(AddMode, s, apps).1), rolls)
    ensures var (s1, apps1) := FinalSubmit(AddMode, s, apps);
      var s2 := AddNewStudentToGroup(s1, apps1, rolls, now);
      && Group(s2.data) == Group(s.data)
      && s2.activeGroupId == Some(s.data.groupId)
      && InitializeIds(AddMode, s2, apps1, rolls, token) == s2
  {
    var (s1, apps1) := FinalSubmit(AddMode, s, apps);
    var s2 := AddNewStudentToGroup(s1, apps1, rolls, now);
    Identifiers.NextGatePassIdShape(Ids(apps1));
    assert s2.data.id != "" by {
      assert |Identifiers.Prefix| <= |s2.data.id|;
    }
  }

  /** When the submitted student was stored and ids are still below the six-digit limit,
      the next student of the group gets a different gate pass id. */
  lemma SiblingGetsNewGatePassId(s: FormState, apps: seq<Application>, rolls: seq<Identifiers.Roll>, now: int)
    requires !Store.IsIdDuplicate(apps, s.data.id)
    requires Identifiers.LastNumber(Ids(apps + [s.data])) < 999999
    requires Identifiers.HasFreshRoll(ApplicationNos(apps + [s.data]), rolls)
    ensures var (s1, apps1) := FinalSubmit(AddMode, s, apps);
      && apps1 == apps + [s.data]
      && AddNewStudentToGroup(s1, apps1, rolls, now).data.id != s.data.id
  {
    var apps1 := apps + [s.data];
    SubmitAppendsUnlessDuplicate(s, apps);
    Identifiers.NextGatePassIdFresh(Ids(apps1));
    assert Ids(apps1)[|apps|] == s.data.id;
  }

  /** Starting a new group and letting the id effect run: a blank record with the next
      gate pass id, a fresh application number and the random token as its group id. */
  lemma NewGroupGetsToken(
    s: FormState, apps: seq<Application>, rolls: seq<Identifiers.Roll>, now: int, token: string)
    requires Identifiers.HasFreshRoll(ApplicationNos(apps), rolls)
    ensures var r := InitializeIds(AddMode, ResetForNewGroup(s, now), apps, rolls, token);
      && r.data.groupId == token
      && r.data.id == Identifiers.NextGatePassId(Ids(apps))
      && r.data.applicationNo !in ApplicationNos(apps)
      && Personal(r.data) == BlankPersonal
      && r.activeGroupId == None && !r.isSuccess
  {
  }
}

=== FILE: identifiers.dfy ===
/** Identifier allocation (constants.ts): the next sequential gate pass id and a random
    application number that is not already taken. */
module Identifiers {
  import opened Maybe
  import opened JsText

  const Prefix := "SP"
  const DigitCount := 6

  /** An id in the form the allocator writes: "SP" and six decimal digits. */
  predicate WellFormedGatePassId(id: string) {
    |id| == |Prefix| + DigitCount && Prefix <= id && AllDigits(id[|Prefix|..])
  }

  /** The number an existing id contributes to the sequence: ids that start with "SP" and
      are eight characters long are read with `parseInt` on the six characters after the
      prefix; every other id, and a suffix with no leading digits, contributes nothing. */
  function SuffixNumber(id: string): Option<int> {
    if Prefix <= id && |id| == |Prefix| + DigitCount then ParseInt(id[|Prefix|..]) else None
  }

  /** Six characters parse to at least -99999 (a sign and five digits) and at most 999999. */
  lemma SuffixNumberBounds(id: string)
    requires SuffixNumber(id).Some?
    ensures -99999 <= SuffixNumber(id).value <= 999999
  {
    assert |id[|Prefix|..]| == 6;
    assert Pow10(5) == 100000 && Pow10(6) == 1000000;
  }

  /** `existingIds.filter(...).map(parseInt).filter(!isNaN)`: the considered numbers in
      input order. */
  function NumericIds(ids: seq<string>): (ns: seq<int>)
    ensures forall i :: 0 <= i < |ids| && SuffixNumber(ids[i]).Some? ==> SuffixNumber(ids[i]).value in ns
    ensures forall k :: 0 <= k < |ns| ==> -99999 <= ns[k] <= 999999
  {
    if |ids| == 0 then []
    else
      match SuffixNumber(ids[0])
      case Some(n) => SuffixNumberBounds(ids[0]); [n] + NumericIds(ids[1..])
      case None => NumericIds(ids[1..])
  }

  lemma NumericIdsCons(ids: seq<string>)
    requires |ids| > 0
    ensures NumericIds(ids) ==
              (if SuffixNumber(ids[0]).Some? then [SuffixNumber(ids[0]).value] else []) + NumericIds(ids[1..])
  {
  }

  /** The values of the present entries, in order. */
  function Present(os: seq<Option<int>>): seq<int> {
    if |os| == 0 then [] else (if os[0].Some? then [os[0].value] else []) + Present(os[1..])
  }

  /** The position of the entry that supplied the `k`-th present value. */
  lemma {:induction false} PresentSource(os: seq<Option<int>>, k: int) returns (i: int)
    requires 0 <= k < |Present(os)|
    ensures 0 <= i < |os| && os[i] == Some(Present(os)[k])
  {
    var head := if os[0].Some? then [os[0].value] else [];
    assert Present(os) == head + Present(os[1..]);
    if k < |head| {
      i := 0;
    } else {
      var j := PresentSource(os[1..], k - |head|);
      i := j + 1;
    }
  }

  /** The suffix number of each id, position by position. */
  function SuffixNumbers(ids: seq<string>): (os: seq<Option<int>>)
    ensures |os| == |ids|
  {
    if |ids| == 0 then [] else [SuffixNumber(ids[0])] + SuffixNumbers(ids[1..])
  }

  lemma {:induction false} SuffixNumbersAt(ids: seq<string>, i: int)
    requires 0 <= i < |ids|
    ensures SuffixNumbers(ids)[i] == SuffixNumber(ids[i])
  {
    if i > 0 {
      SuffixNumbersAt(ids[1..], i - 1);
      assert ids[1..][i - 1] == ids[i];
    }
  }

  /** The considered numbers are the present values among the ids' suffix numbers. */
  lemma {:induction false} NumericIdsArePresent(ids: seq<string>)
    ensures NumericIds(ids) == Present(SuffixNumbers(ids))
  {
    if |ids| > 0 {
      NumericIdsArePresent(ids[1..]);
      var os := SuffixNumbers(ids);
      assert os[0] == SuffixNumber(ids[0]) && os[1..] == SuffixNumbers(ids[1..]);
      NumericIdsCons(ids);
    }
  }

  /** The position of the id that supplied the `k`-th considered number. */
  lemma NumericIdSource(ids: seq<string>, k: int) returns (i: int)
    requires 0 <= k < |NumericIds(ids)|
    ensures 0 <= i < |ids| && SuffixNumber(ids[i]) == Some(NumericIds(ids)[k])
  {
    NumericIdsArePresent(ids);
    i := PresentSource(SuffixNumbers(ids), k);
    SuffixNumbersAt(ids, i);
  }

  /** Every considered number is the number of some existing id. */
  lemma NumericIdsOrigin(ids: seq<string>)
    ensures forall k :: 0 <= k < |NumericIds(ids)| ==>
              exists i :: 0 <= i < |ids| && SuffixNumber(ids[i]) == Some(NumericIds(ids)[k])
  {
    var ns := NumericIds(ids);
    forall k | 0 <= k < |ns|
      ensures exists i :: 0 <= i < |ids| && SuffixNumber(ids[i]) == Some(ns[k])
    {
      var i := NumericIdSource(ids, k);
      assert 0 <= i < |ids| && SuffixNumber(ids[i]) == Some(ns[k]);
    }
  }

  lemma {:induction false} NumericIdsConcat(a: seq<string>, b: seq<string>)
    ensures NumericIds(a + b) == NumericIds(a) + NumericIds(b)
    decreases |a|
  {
    if |a| > 0 {
      assert (a + b)[1..] == a[1..] + b;
      NumericIdsConcat(a[1..], b);
    } else {
      assert a + b == b;
    }
  }

  /** `Math.max(...ns)` on a non-empty list. */
  function MaxOf(ns: seq<int>): (m: int)
    requires |ns| > 0
    ensures m in ns && forall k :: 0 <= k < |ns| ==> ns[k] <= m
  {
    if |ns| == 1 then ns[0]
    else
      var rest := MaxOf(ns[1..]);
      if ns[0] >= rest then ns[0] else rest
  }

  /** The highest considered number, or 0 when no id is considered. */
  function LastNumber(ids: seq<string>): int {
    var ns := NumericIds(ids);
    if |ns| > 0 then MaxOf(ns) else 0
  }

  /** `generateNextGatePassId`: "SP" followed by the last number plus one, in decimal,
      zero-padded on the left to six characters. */
  function NextGatePassId(ids: seq<string>): string {
    IdAfter(LastNumber(ids))
  }

  /** The id written for the number after `last`. */
  function IdAfter(last: int): string {
    Prefix + PadStart(IntToString(last + 1), DigitCount, '0')
  }

  lemma LastNumberBounds(ids: seq<string>)
    ensures -99999 <= LastNumber(ids) <= 999999
  {
  }

  /** The six-character suffix the allocator writes for `m` reads back as at least `m`:
      exactly `m` when `m` is not negative, and for negative `m` either `m` or (when the
      padding zeros come before the minus sign) 0. */
  lemma FormattedSuffix(m: int)
    requires -99998 <= m <= 999999
    ensures |PadStart(IntToString(m), DigitCount, '0')| == DigitCount
    ensures var v := ParseInt(PadStart(IntToString(m), DigitCount, '0'));
            v.Some? && v.value >= m && (m >= 0 ==> v.value == m)
  {
    var p := PadStart(IntToString(m), DigitCount, '0');
    if m >= 0 {
      NatToStringLength(m, 6);
      ZeroPaddedRoundTrip(m, DigitCount);
    } else {
      var d := NatToString(-m);
      NatToStringLength(-m, 5);
      var s := "-" + d;
      assert IntToString(m) == s;
      if |s| == 6 {
        assert p == s;
        DigitIsNotSpace('-');
        assert TrimStart(p) == p;
        assert p[1..] == d;
        LeadingDigitsOf(d, []);
        assert d + [] == d;
        assert ParseDigits(d) == Some(-m);
      } else {
        var z := Repeat('0', 6 - |s|);
        assert p == z + s;
        DigitIsNotSpace('0');
        assert TrimStart(p) == p;
        assert !IsDigit('-');
        assert p == z + s && s[0] == '-';
        LeadingDigitsOf(z, s);
        LeadingZerosIgnored(z, []);
        assert z + [] == z;
        assert DigitsValue([]) == 0;
      }
    }
  }

  /** The allocated id starts with "SP". While the highest considered number is below
      999999 it is eight characters long; when that number is not negative the suffix is
      six digits and the allocator itself reads it back as the highest number plus one. */
  lemma NextGatePassIdShape(ids: seq<string>)
    ensures Prefix <= NextGatePassId(ids)
    ensures LastNumber(ids) < 999999 ==> |NextGatePassId(ids)| == |Prefix| + DigitCount
    ensures 0 <= LastNumber(ids) < 999999 ==>
              WellFormedGatePassId(NextGatePassId(ids)) &&
              SuffixNumber(NextGatePassId(ids)) == Some(LastNumber(ids) + 1)
  {
    var m := LastNumber(ids) + 1;
    var r := NextGatePassId(ids);
    if LastNumber(ids) < 999999 {
      FormattedSuffix(m);
      assert r[|Prefix|..] == PadStart(IntToString(m), DigitCount, '0');
      if m >= 0 {
        ZeroPaddedRoundTrip(m, DigitCount);
      }
    }
  }

  /** The id written after `last` reads back as at least `last + 1`. */
  lemma IdAfterReadsBack(last: int)
    requires -99999 <= last < 999999
    ensures SuffixNumber(IdAfter(last)).Some? && SuffixNumber(IdAfter(last)).value > last
  {
    var r := IdAfter(last);
    FormattedSuffix(last + 1);
    assert r[|Prefix|..] == PadStart(IntToString(last + 1), DigitCount, '0');
  }

  /** The allocated number is strictly above every considered number. */
  lemma NextGatePassIdExceedsAll(ids: seq<string>, i: int)
    requires 0 <= i < |ids| && SuffixNumber(ids[i]).Some?
    ensures SuffixNumber(ids[i]).value < LastNumber(ids) + 1
  {
  }

  /** While the highest considered number is below 999999, the allocated id is not
      among the existing ones. */
  lemma NextGatePassIdFresh(ids: seq<string>)
    requires LastNumber(ids) < 999999
    ensures NextGatePassId(ids) !in ids
  {
    var r := NextGatePassId(ids);
    var m := LastNumber(ids) + 1;
    LastNumberBounds(ids);
    IdAfterReadsBack(m - 1);
    assert SuffixNumber(r).Some? && SuffixNumber(r).value >= m;
    forall i | 0 <= i < |ids|
      ensures ids[i] != r
    {
      if SuffixNumber(ids[i]).Some? {
        NextGatePassIdExceedsAll(ids, i);
      }
    }
  }

  /** Ids the allocator ignores can be added anywhere without changing its answer. */
  lemma IgnoredIdsDoNotMatter(a: seq<string>, x: string, b: seq<string>)
    requires SuffixNumber(x).None?
    ensures NextGatePassId(a + [x] + b) == NextGatePassId(a + b)
  {
    NumericIdsConcat(a + [x], b);
    NumericIdsConcat(a, [x]);
    NumericIdsConcat(a, b);
    assert NumericIds([x]) == [];
    assert NumericIds(a + [x]) == NumericIds(a);
  }

  /** With no considered id the sequence starts at "SP000001". */
  lemma FirstGatePassId(ids: seq<string>)
    requires forall i :: 0 <= i < |ids| ==> SuffixNumber(ids[i]).None?
    ensures NextGatePassId(ids) == "SP000001"
  {
    NumericIdsNonEmpty(ids);
    assert LastNumber(ids) == 0;
    IdAfterOneDigit(0);
    assert "SP00000" + [DigitChar(1)] == "SP000001";
  }

  /** Some number is considered exactly when some id supplies one. */
  lemma NumericIdsNonEmpty(ids: seq<string>)
    ensures |NumericIds(ids)| > 0 <==> exists i :: 0 <= i < |ids| && SuffixNumber(ids[i]).Some?
  {
    var ns := NumericIds(ids);
    NumericIdsOrigin(ids);
    if |ns| > 0 {
      assert exists i :: 0 <= i < |ids| && SuffixNumber(ids[i]) == Some(ns[0]);
    }
  }

  /** The last number is 0 when no id supplies one, and otherwise the number of some
      existing id. */
  lemma LastNumberOrigin(ids: seq<string>)
    ensures (forall i :: 0 <= i < |ids| ==> SuffixNumber(ids[i]).None?) ==> LastNumber(ids) == 0
    ensures (exists i :: 0 <= i < |ids| && SuffixNumber(ids[i]).Some?) ==>
              exists i :: 0 <= i < |ids| && SuffixNumber(ids[i]) == Some(LastNumber(ids))
  {
    var ns := NumericIds(ids);
    NumericIdsNonEmpty(ids);
    NumericIdsOrigin(ids);
    if |ns| > 0 {
      var k :| 0 <= k < |ns| && ns[k] == MaxOf(ns);
      assert exists i :: 0 <= i < |ids| && SuffixNumber(ids[i]) == Some(ns[k]);
    }
  }

  /** A well-formed id contributes the value of its six digits. */
  lemma DigitSuffix(id: string)
    requires WellFormedGatePassId(id)
    ensures SuffixNumber(id) == Some(DigitsValue(id[|Prefix|..]))
  {
    ParseIntOfDigits(id[|Prefix|..]);
  }

  /** When every existing id is well formed, the last number is not negative. */
  lemma {:induction false} WellFormedIdsCountFromZero(ids: seq<string>)
    requires forall i :: 0 <= i < |ids| ==> WellFormedGatePassId(ids[i])
    ensures LastNumber(ids) >= 0
  {
    WellFormedNumbersNonNegative(ids);
    var ns := NumericIds(ids);
    if |ns| > 0 {
      var m := MaxOf(ns);
      var k :| 0 <= k < |ns| && ns[k] == m;
    }
  }

  lemma {:induction false} WellFormedNumbersNonNegative(ids: seq<string>)
    requires forall i :: 0 <= i < |ids| ==> WellFormedGatePassId(ids[i])
    ensures forall k :: 0 <= k < |NumericIds(ids)| ==> NumericIds(ids)[k] >= 0
  {
    if |ids| > 0 {
      WellFormedNumbersNonNegative(ids[1..]);
      DigitSuffix(ids[0]);
      assert NumericIds(ids) == [DigitsValue(ids[0][|Prefix|..])] + NumericIds(ids[1..]);
    }
  }

  /** "SP" followed by five zeros and one digit contributes that digit. */
  lemma OneDigitSuffix(id: string, d: char)
    requires IsDigit(d) && id == "SP00000" + [d]
    ensures SuffixNumber(id) == Some(DigitValue(d))
  {
    assert id[2..] == "00000" + [d];
    assert AllDigits([d]) && DigitsValue([d]) == DigitValue(d);
    LeadingZerosIgnored("00000", [d]);
    assert WellFormedGatePassId(id);
    DigitSuffix(id);
  }

  /** The allocator's answer for a last number below ten. */
  lemma NextAfterOneDigit(ids: seq<string>, n: nat)
    requires LastNumber(ids) == n && n < 9
    ensures NextGatePassId(ids) == "SP00000" + [DigitChar(n + 1)]
  {
    IdAfterOneDigit(n);
  }

  lemma IdAfterOneDigit(n: nat)
    requires n < 9
    ensures IdAfter(n) == "SP00000" + [DigitChar(n + 1)]
  {
    assert IntToString(n + 1) == [DigitChar(n + 1)];
    assert Repeat('0', 5) == "00000";
  }

  /** Two considered ids give their two numbers, in order. */
  lemma TwoNumericIds(a: string, b: string, na: int, nb: int)
    requires SuffixNumber(a) == Some(na) && SuffixNumber(b) == Some(nb)
    ensures NumericIds([a, b]) == [na, nb]
  {
    var ids := [a, b];
    assert ids[0] == a && ids[1..] == [b];
    assert [b][0] == b && [b][1..] == [];
    assert NumericIds([b]) == [nb] + NumericIds([]);
    assert NumericIds(ids) == [na] + NumericIds([b]);
  }

  /** Gaps are not reused: after "SP000001" and "SP000003" comes "SP000004". */
  lemma GapsAreNotReused(a: string, b: string)
    requires a == "SP000001" && b == "SP000003"
    ensures NextGatePassId([a, b]) == "SP000004"
  {
    assert a == "SP00000" + ['1'] && b == "SP00000" + ['3'];
    OneDigitSuffix(a, '1');
    OneDigitSuffix(b, '3');
    TwoNumericIds(a, b, 1, 3);
    assert [1, 3][1..] == [3];
    assert LastNumber([a, b]) == 3;
    NextAfterOneDigit([a, b], 3);
    assert "SP00000" + [DigitChar(4)] == "SP000004";
  }

  /** A signed suffix is accepted by `parseInt`, and the next number is then printed with
      its minus sign inside the padding: "SP-00005" is followed by "SP0000-4". */
  lemma NegativeSuffixIsPaddedAroundTheSign(a: string)
    requires a == "SP-00005"
    ensures NextGatePassId([a]) == "SP0000-4"
  {
    var ids := [a];
    var t := ids[0][2..];
    assert t == "-00005";
    DigitIsNotSpace('-');
    assert TrimStart(t) == t;
    assert t[1..] == "00005";
    LeadingDigitsOf("00005", []);
    assert "00005" + [] == "00005";
    LeadingZerosIgnored("0000", "5");
    assert "0000" + "5" == "00005";
    assert ParseInt(t) == Some(-5);
    assert NumericIds(ids) == [-5];
    assert IntToString(-4) == "-4";
  }

  lemma SixNines(nines: string)
    requires nines == "999999"
    ensures AllDigits(nines) && DigitsValue(nines) == 999999
  {
    AllNines(nines);
    assert Pow10(6) == 1000000;
  }

  lemma OneMillionText()
    ensures IntToString(1000000) == "1000000"
  {
    assert NatToString(1) == "1";
    assert NatToString(10) == "10";
    assert NatToString(100) == "100";
    assert NatToString(1000) == "1000";
    assert NatToString(10000) == "10000";
    assert NatToString(100000) == "100000";
  }

  /** Past 999999 the padding no longer applies and the id grows to nine characters. */
  lemma SequenceOverflowsSixDigits(a: string)
    requires a == "SP999999"
    ensures NextGatePassId([a]) == "SP1000000"
  {
    LastSixDigitSuffix(a);
    OnlyNumber(a, 999999);
    NextAfterLastSixDigitNumber([a]);
  }

  lemma LastSixDigitSuffix(a: string)
    requires a == "SP999999"
    ensures SuffixNumber(a) == Some(999999)
  {
    SixNines(a[2..]);
    assert WellFormedGatePassId(a);
    DigitSuffix(a);
  }

  /** A single considered id is the last number. */
  lemma OnlyNumber(a: string, n: int)
    requires SuffixNumber(a) == Some(n)
    ensures LastNumber([a]) == n
  {
    assert [a][0] == a && [a][1..] == [];
    assert NumericIds([a]) == [n] + NumericIds([]);
  }

  lemma NextAfterLastSixDigitNumber(ids: seq<string>)
    requires LastNumber(ids) == 999999
    ensures NextGatePassId(ids) == "SP1000000"
  {
    IdAfterLastSixDigitNumber();
  }

  lemma IdAfterLastSixDigitNumber()
    ensures IdAfter(999999) == "SP1000000"
  {
    OneMillionText();
    assert PadStart("1000000", DigitCount, '0') == "1000000";
  }

  // ---------------------------------------------------------------------------
  // Application numbers

  const AppNoAlphabet := "0123456789ABCDEFGHIJKLMNOPQRSTUVWXYZ"
  const AppNoLength := 6

  /** `Math.floor(Math.random() * chars.length)`: an index into the alphabet. */
  type Pick = k: int | 0 <= k < 36

  /** The six picks of one call of the inner `generate`. */
  type Roll = s: seq<Pick> | |s| == 6 witness [0, 0, 0, 0, 0, 0]

  /** The code one roll spells out. */
  function Code(roll: Roll): (r: string)
    ensures |r| == AppNoLength && forall i :: 0 <= i < |r| ==> r[i] in AppNoAlphabet
  {
    seq(6, i requires 0 <= i < 6 => AppNoAlphabet[roll[i]])
  }

  /** The random source eventually produces a code not yet taken, so the retry loop
      returns. */
  predicate HasFreshRoll(existing: seq<string>, rolls: seq<Roll>) {
    exists k :: 0 <= k < |rolls| && Code(rolls[k]) !in existing
  }

  /** Roll `k` is the first one whose code is not taken. */
  predicate FirstFreshAt(existing: seq<string>, rolls: seq<Roll>, k: int) {
    && 0 <= k < |rolls|
    && Code(rolls[k]) !in existing
    && forall j :: 0 <= j < k ==> Code(rolls[j]) in existing
  }

  /** `generateUniqueApplicationNo`: draw codes from the random source until one is not
      in `existing`, and return it. */
  function UniqueApplicationNo(existing: seq<string>, rolls: seq<Roll>): (r: string)
    requires HasFreshRoll(existing, rolls)
    ensures |r| == AppNoLength && forall i :: 0 <= i < |r| ==> r[i] in AppNoAlphabet
    ensures r !in existing
    ensures exists k :: FirstFreshAt(existing, rolls, k) && r == Code(rolls[k])
    decreases |rolls|
  {
    if Code(rolls[0]) !in existing then
      assert FirstFreshAt(existing, rolls, 0);
      Code(rolls[0])
    else
      var k :| 0 <= k < |rolls| && Code(rolls[k]) !in existing;
      assert Code(rolls[1..][k - 1]) !in existing;
      var r := UniqueApplicationNo(existing, rolls[1..]);
      var k' :| FirstFreshAt(existing, rolls[1..], k') && r == Code(rolls[1..][k']);
      assert FirstFreshAt(existing, rolls, k' + 1);
      r
  }
}

=== FILE: js_text.dfy ===
/** The few pieces of JavaScript string and number semantics the record-keeping core
    relies on: whitespace trimming, case mapping, `includes`, `parseInt(s, 10)`,
    `Number.prototype.toString()` on integers and `padStart`. */
module JsText {
  import opened Maybe

  /** ECMAScript's StrWhiteSpaceChar: the WhiteSpace and LineTerminator code points
      that `trim` removes and `parseInt` skips. */
  predicate IsSpace(c: char) {
    || c == '\t' || c == '\U{000B}' || c == '\U{000C}' || c == ' ' || c == '\U{00A0}'
    || c == '\U{FEFF}' || c == '\n' || c == '\r' || c == '\U{2028}' || c == '\U{2029}'
    || c == '\U{1680}' || ('\U{2000}' <= c <= '\U{200A}') || c == '\U{202F}'
    || c == '\U{205F}' || c == '\U{3000}'
  }

  /** `s` with its leading whitespace removed. */
  function TrimStart(s: string): (r: string)
    ensures |r| <= |s| && r == s[|s| - |r|..]
    ensures forall i :: 0 <= i < |s| - |r| ==> IsSpace(s[i])
    ensures r == [] || !IsSpace(r[0])
  {
    if |s| > 0 && IsSpace(s[0]) then
      var r := TrimStart(s[1..]);
      assert s[1..][|s| - 1 - |r|..] == s[|s| - |r|..];
      assert forall i :: 1 <= i < |s| - |r| ==> s[i] == s[1..][i - 1];
      r
    else s
  }

  /** `s` with its trailing whitespace removed. */
  function TrimEnd(s: string): (r: string)
    ensures |r| <= |s| && r == s[..|r|]
    ensures forall i :: |r| <= i < |s| ==> IsSpace(s[i])
    ensures r == [] || !IsSpace(r[|r| - 1])
  {
    if |s| > 0 && IsSpace(s[|s| - 1]) then
      var r := TrimEnd(s[..|s| - 1]);
      assert s[..|s| - 1][..|r|] == s[..|r|];
      assert forall i :: |r| <= i < |s| - 1 ==> s[i] == s[..|s| - 1][i];
      r
    else s
  }

  /** `String.prototype.trim`. */
  function Trim(s: string): string {
    TrimEnd(TrimStart(s))
  }

  /** Case mapping, restricted to the ASCII letters. */
  function UpperChar(c: char): char {
    if 'a' <= c <= 'z' then (c as int - 32) as char else c
  }

  function LowerChar(c: char): char {
    if 'A' <= c <= 'Z' then (c as int + 32) as char else c
  }

  /** `String.prototype.toUpperCase` on ASCII text. */
  function ToUpper(s: string): (r: string)
    ensures |r| == |s|
  {
    seq(|s|, i requires 0 <= i < |s| => UpperChar(s[i]))
  }

  /** `String.prototype.toLowerCase` on ASCII text. */
  function ToLower(s: string): (r: string)
    ensures |r| == |s|
  {
    seq(|s|, i requires 0 <= i < |s| => LowerChar(s[i]))
  }

  /** `hay.includes(needle)`: `needle` occurs in `hay` as a contiguous block. */
  predicate Contains(hay: string, needle: string)
    decreases |hay|
  {
    needle <= hay || (|hay| > 0 && Contains(hay[1..], needle))
  }

  /** `needle` starts at position `i` of `hay`. */
  predicate OccursAt(hay: string, needle: string, i: int) {
    0 <= i <= |hay| - |needle| && hay[i..i + |needle|] == needle
  }

  /** A block of `s[1..]` is the block of `s` one position further on. */
  lemma TailSlice(s: string, i: nat, j: nat)
    requires i <= j <= |s| - 1
    ensures s[1..][i..j] == s[i + 1..j + 1]
  {
    forall k | 0 <= k < j - i
      ensures s[1..][i..j][k] == s[i + 1..j + 1][k]
    {
    }
  }

  /** `Contains` agrees with the index-based reading of `includes`: there is a position
      where `needle` starts. */
  lemma {:induction false} ContainsAt(hay: string, needle: string)
    ensures Contains(hay, needle) <==> exists i :: OccursAt(hay, needle, i)
    decreases |hay|
  {
    if Contains(hay, needle) {
      if needle <= hay {
        assert OccursAt(hay, needle, 0);
      } else {
        ContainsAt(hay[1..], needle);
        var i :| OccursAt(hay[1..], needle, i);
        TailSlice(hay, i, i + |needle|);
        assert OccursAt(hay, needle, i + 1);
      }
    }
    if exists i :: OccursAt(hay, needle, i) {
      var i :| OccursAt(hay, needle, i);
      if i == 0 {
        assert needle <= hay;
      } else {
        TailSlice(hay, i - 1, i - 1 + |needle|);
        assert OccursAt(hay[1..], needle, i - 1);
        ContainsAt(hay[1..], needle);
      }
    }
  }

  predicate IsDigit(c: char) {
    '0' <= c <= '9'
  }

  predicate AllDigits(s: string) {
    forall i :: 0 <= i < |s| ==> IsDigit(s[i])
  }

  function DigitValue(c: char): nat
    requires IsDigit(c)
  {
    c as int - '0' as int
  }

  function DigitChar(d: nat): (c: char)
    requires d < 10
    ensures IsDigit(c) && DigitValue(c) == d
  {
    ('0' as int + d) as char
  }

  function Pow10(k: nat): (r: nat)
    ensures r >= 1
  {
    if k == 0 then 1 else 10 * Pow10(k - 1)
  }

  lemma {:induction false} Pow10Monotone(j: nat, k: nat)
    requires j <= k
    ensures Pow10(j) <= Pow10(k)
    decreases k
  {
    if j < k {
      Pow10Monotone(j, k - 1);
    }
  }

  /** The decimal value of a string of digits, most significant first. */
  function DigitsValue(s: string): nat
    requires AllDigits(s)
  {
    if |s| == 0 then 0 else 10 * DigitsValue(s[..|s| - 1]) + DigitValue(s[|s| - 1])
  }

  lemma {:induction false} DigitsValueBound(s: string)
    requires AllDigits(s)
    ensures DigitsValue(s) < Pow10(|s|)
  {
    if |s| > 0 {
      DigitsValueBound(s[..|s| - 1]);
    }
  }

  /** A string of nines is one below the next power of ten. */
  lemma {:induction false} AllNines(s: string)
    requires forall i :: 0 <= i < |s| ==> s[i] == '9'
    ensures AllDigits(s) && DigitsValue(s) == Pow10(|s|) - 1
  {
    if |s| > 0 {
      AllNines(s[..|s| - 1]);
    }
  }

  /** Zeros in front of a digit string do not change its value. */
  lemma {:induction false} LeadingZerosIgnored(z: string, s: string)
    requires forall i :: 0 <= i < |z| ==> z[i] == '0'
    requires AllDigits(s)
    ensures AllDigits(z + s) && DigitsValue(z + s) == DigitsValue(s)
    decreases |z| + |s|
  {
    var zs := z + s;
    if |s| == 0 {
      assert zs == z;
      if |z| > 0 {
        assert zs[..|zs| - 1] == z[..|z| - 1] + s;
        LeadingZerosIgnored(z[..|z| - 1], s);
      }
    } else {
      assert zs[..|zs| - 1] == z + s[..|s| - 1];
      LeadingZerosIgnored(z, s[..|s| - 1]);
    }
  }

  /** The longest prefix of `s` made of decimal digits. */
  function LeadingDigits(s: string): (r: string)
    ensures r <= s && AllDigits(r)
    ensures |r| < |s| ==> !IsDigit(s[|r|])
  {
    if |s| > 0 && IsDigit(s[0]) then [s[0]] + LeadingDigits(s[1..]) else []
  }

  lemma {:induction false} LeadingDigitsOf(d: string, t: string)
    requires AllDigits(d)
    requires t == [] || !IsDigit(t[0])
    ensures LeadingDigits(d + t) == d
    decreases |d|
  {
    if |d| > 0 {
      assert (d + t)[1..] == d[1..] + t;
      LeadingDigitsOf(d[1..], t);
    } else {
      assert d + t == t;
    }
  }

  lemma DigitIsNotSpace(c: char)
    requires IsDigit(c) || c == '-' || c == '+'
    ensures !IsSpace(c)
  {
  }

  /** The value of the digits at the start of `b`; `None` when `b` does not start with one. */
  function ParseDigits(b: string): (r: Option<nat>)
    ensures r.Some? ==> r.value < Pow10(|b|)
  {
    var d := LeadingDigits(b);
    if |d| == 0 then None
    else
      DigitsValueBound(d);
      Pow10Monotone(|d|, |b|);
      Some(DigitsValue(d))
  }

  /** `parseInt` after the leading whitespace is gone: an optional sign, then digits. */
  function ParseSigned(t: string): (r: Option<int>)
    ensures r.Some? ==> |t| >= 1 && 0 - Pow10(|t| - 1) < r.value < Pow10(|t|)
  {
    if |t| > 0 && t[0] == '-' then
      match ParseDigits(t[1..])
      case None => None
      case Some(n) => Pow10Monotone(|t| - 1, |t|); Some(0 - n)
    else if |t| > 0 && t[0] == '+' then
      match ParseDigits(t[1..])
      case None => None
      case Some(n) => Pow10Monotone(|t| - 1, |t|); Some(n)
    else
      match ParseDigits(t)
      case None => None
      case Some(n) => Some(n)
  }

  /** `parseInt(s, 10)`: skip leading whitespace, read an optional sign, then the longest
      run of decimal digits; `None` (NaN) when that run is empty. */
  function ParseInt(s: string): (r: Option<int>)
    ensures r.Some? ==> |s| >= 1 && 0 - Pow10(|s| - 1) < r.value < Pow10(|s|)
  {
    var t := TrimStart(s);
    var r := ParseSigned(t);
    if r.Some? then
      Pow10Monotone(|t|, |s|);
      Pow10Monotone(|t| - 1, |s| - 1);
      r
    else r
  }

  /** A string of digits parses to its decimal value. */
  lemma ParseIntOfDigits(s: string)
    requires |s| > 0 && AllDigits(s)
    ensures ParseInt(s) == Some(DigitsValue(s))
  {
    DigitIsNotSpace(s[0]);
    assert TrimStart(s) == s;
    LeadingDigitsOf(s, []);
    assert s + [] == s;
  }

  /** `n.toString()` for a non-negative integer: shortest decimal form, most significant
      digit first. */
  function NatToString(n: nat): (r: string)
    ensures |r| > 0 && AllDigits(r) && DigitsValue(r) == n
    ensures |r| == 1 || r[0] != '0'
  {
    if n < 10 then [DigitChar(n)]
    else
      var p := NatToString(n / 10);
      var r := p + [DigitChar(n % 10)];
      assert r[..|r| - 1] == p;
      r
  }

  lemma {:induction false} NatToStringLength(n: nat, k: nat)
    requires 1 <= k && n < Pow10(k)
    ensures |NatToString(n)| <= k
  {
    if n >= 10 {
      NatToStringLength(n / 10, k - 1);
    }
  }

  /** `n.toString()` for any integer. */
  function IntToString(n: int): (r: string)
    ensures n >= 0 ==> r == NatToString(n)
    ensures n < 0 ==> r == "-" + NatToString(-n)
  {
    if n < 0 then "-" + NatToString(-n) else NatToString(n)
  }

  function Repeat(c: char, k: nat): (r: string)
    ensures |r| == k && forall i :: 0 <= i < k ==> r[i] == c
  {
    seq(k, _ => c)
  }

  /** `s.padStart(width, fill)` with a one-character filler. */
  function PadStart(s: string, width: nat, fill: char): string {
    if |s| >= width then s else Repeat(fill, width - |s|) + s
  }

  /** Padding never cuts: the result is as wide as the text or the width, whichever is
      larger, it ends with the text, and everything before the text is the filler. */
  lemma PadStartShape(s: string, width: nat, fill: char)
    ensures var r := PadStart(s, width, fill);
            |r| == (if |s| >= width then |s| else width) &&
            r[|r| - |s|..] == s &&
            forall i :: 0 <= i < |r| - |s| ==> r[i] == fill
  {
    var r := PadStart(s, width, fill);
    if |s| < width {
      assert r == Repeat(fill, width - |s|) + s;
      assert r[|r| - |s|..] == s;
    }
  }

  /** Zero-padding the decimal form of `n` and parsing it back gives `n`. */
  lemma ZeroPaddedRoundTrip(n: nat, width: nat)
    ensures var p := PadStart(NatToString(n), width, '0');
            AllDigits(p) && ParseInt(p) == Some(n)
  {
    var d := NatToString(n);
    var p := PadStart(d, width, '0');
    if |d| < width {
      LeadingZerosIgnored(Repeat('0', width - |d|), d);
    }
    ParseIntOfDigits(p);
  }
}

=== FILE: maybe.dfy ===
/** An optional value: `None` stands for JavaScript's `null`, `undefined` or `NaN`
    wherever the modelled code produces one of them instead of a value. */
module Maybe {

  datatype Option<+T> = None | Some(value: T) {

    /** The value, or `default` when there is none (JavaScript's `x || default`). */
    function GetOr(default: T): T {
      match this
      case Some(v) => v
      case None => default
    }
  }
}

=== FILE: number_box.dfy ===
/** What the form reads from an `<input type="number">`. The browser keeps the box's
    text only when it is a valid floating-point number in the sense of the HTML standard
    (an optional `-`, digits with an optional fraction, an optional exponent) and
    otherwise reports the empty string; the form stores `Number(text)`, and the age rule
    later reads that number back with `parseInt(String(x))`. Numbers are exact decimals
    here: binary rounding and overflow to `Infinity` are not modelled. */
module NumberBox {
  import opened Maybe
  import opened JsText

  /** The number `(-1)^negative * mantissa * 10^exponent`. */
  datatype Decimal = Decimal(negative: bool, mantissa: nat, exponent: int)

  /** 10^21: from here on `String` writes a number in exponent notation. */
  const PlainLimit: nat := 1_000_000_000_000_000_000_000

  lemma {:induction false} AllDigitsConcat(a: string, b: string)
    requires AllDigits(a) && AllDigits(b)
    ensures AllDigits(a + b)
  {
    forall i | 0 <= i < |a + b|
      ensures IsDigit((a + b)[i])
    {
      if i < |a| {
        assert (a + b)[i] == a[i];
      } else {
        assert (a + b)[i] == b[i - |a|];
      }
    }
  }

  /** The run of digits at the start of `s`, and what follows it. */
  function SplitDigits(s: string): (r: (string, string))
    ensures r.0 + r.1 == s && AllDigits(r.0)
    ensures r.1 == [] || !IsDigit(r.1[0])
  {
    var d := LeadingDigits(s);
    (d, s[|d|..])
  }

  /** Splitting a run of digits followed by a non-digit gives the two parts back. */
  lemma {:induction false} SplitDigitsOf(d: string, t: string)
    requires AllDigits(d)
    requires t == [] || !IsDigit(t[0])
    ensures SplitDigits(d + t) == (d, t)
  {
    LeadingDigitsOf(d, t);
    assert (d + t)[|d|..] == t;
  }

  /** The exponent after `e` or `E`: an optional sign and at least one digit. */
  function ExponentValue(s: string): (r: Option<int>)
    ensures r.Some? ==> |s| > 0
    ensures r.Some? && s[0] != '-' ==> r.value >= 0
  {
    var digits := if |s| > 0 && (s[0] == '-' || s[0] == '+') then s[1..] else s;
    if |digits| > 0 && AllDigits(digits) then
      Some(if s[0] == '-' then 0 - DigitsValue(digits) else DigitsValue(digits))
    else None
  }

  /** What follows the leading digits: whether a point comes next, the digits after the
      point, and what follows those. Without a point there is no fraction. */
  function FractionPart(rest: string): (r: (bool, string, string))
    ensures AllDigits(r.1)
    ensures r.0 <==> |rest| > 0 && rest[0] == '.'
    ensures !r.0 ==> r.1 == [] && r.2 == rest
  {
    if |rest| > 0 && rest[0] == '.' then
      (true, SplitDigits(rest[1..]).0, SplitDigits(rest[1..]).1)
    else (false, [], rest)
  }

  /** The exponent part at the end: nothing for 0, or `e` or `E` followed by an exponent. */
  function ExponentOf(tail: string): (r: Option<int>)
    ensures r.Some? ==> tail == [] || tail[0] == 'e' || tail[0] == 'E'
    ensures tail == [] ==> r == Some(0)
  {
    if tail == [] then Some(0)
    else if tail[0] == 'e' || tail[0] == 'E' then ExponentValue(tail[1..])
    else None
  }

  /** The number a number box holding `s` reports, or `None` when the browser would
      refuse the text and report the empty string. */
  function FloatValue(s: string): (r: Option<Decimal>)
    ensures r.Some? ==> |s| > 0 && (r.value.negative <==> s[0] == '-')
  {
    var negative := |s| > 0 && s[0] == '-';
    var t := if negative then s[1..] else s;
    var whole := SplitDigits(t).0;
    var fraction := FractionPart(SplitDigits(t).1);
    var frac := fraction.1;
    var expo := ExponentOf(fraction.2);
    if |whole| + |frac| == 0 || (fraction.0 && |frac| == 0) || expo.None? then None
    else
      AllDigitsConcat(whole, frac);
      Some(Decimal(negative, DigitsValue(whole + frac), expo.value - |frac|))
  }

  /** `m * 10^k`. */
  function ShiftUp(m: nat, k: nat): (r: nat)
    ensures r >= m
    ensures m == 0 ==> r == 0
  {
    if k == 0 then m else 10 * ShiftUp(m, k - 1)
  }

  /** `m / 10^k`, rounded down. */
  function DropDigits(m: nat, k: nat): nat {
    if k == 0 then m else DropDigits(m / 10, k - 1)
  }

  lemma {:induction false} ShiftUpMonotone(a: nat, b: nat, i: nat, j: nat)
    requires a <= b && i <= j
    ensures ShiftUp(a, i) <= ShiftUp(b, j)
    decreases j
  {
    if j > i {
      ShiftUpMonotone(a, b, i, j - 1);
    } else if j > 0 {
      ShiftUpMonotone(a, b, i - 1, j - 1);
    }
  }

  /** Dropping `k` digits leaves less than `n` exactly when the number is below
      `n * 10^k`. */
  lemma {:induction false} DropDigitsBelow(m: nat, k: nat, n: nat)
    ensures DropDigits(m, k) < n <==> m < ShiftUp(n, k)
    decreases k
  {
    if k > 0 {
      DropDigitsBelow(m / 10, k - 1, n);
      ShiftUpLast(n, k);
    }
  }

  /** Shifting by `k` is shifting by `k - 1` and then once more. */
  lemma {:induction false} ShiftUpLast(n: nat, k: nat)
    requires k > 0
    ensures ShiftUp(n, k) == ShiftUp(10 * n, k - 1)
    decreases k
  {
    if k > 1 {
      ShiftUpLast(n, k - 1);
    }
  }

  lemma {:induction false} ShiftUpAdd(m: nat, i: nat, j: nat)
    ensures ShiftUp(ShiftUp(m, i), j) == ShiftUp(m, i + j)
    decreases j
  {
    if j > 0 {
      ShiftUpAdd(m, i, j - 1);
    }
  }

  /** `PlainLimit` is 1 shifted by 21 digits. */
  lemma PlainLimitIsShift()
    ensures ShiftUp(1, 21) == PlainLimit
  {
    ShiftUpAdd(1, 10, 11);
    assert ShiftUp(1, 10) == 10_000_000_000;
    assert ShiftUp(10_000_000_000, 11) == PlainLimit;
  }

  /** Whether the number's magnitude is below the natural number `n`. */
  predicate MagnitudeBelow(d: Decimal, n: nat) {
    if d.exponent >= 0 then ShiftUp(d.mantissa, d.exponent) < n
    else d.mantissa < ShiftUp(n, 0 - d.exponent)
  }

  /** Whether the magnitude is below 10^-6, where `String` turns to exponent notation. */
  predicate BelowMicro(d: Decimal) {
    if d.exponent + 6 >= 0 then ShiftUp(d.mantissa, d.exponent + 6) < 1
    else d.mantissa < ShiftUp(1, 0 - (d.exponent + 6))
  }

  /** The magnitude with its fraction cut off. */
  function Truncate(d: Decimal): nat {
    if d.exponent >= 0 then ShiftUp(d.mantissa, d.exponent) else DropDigits(d.mantissa, 0 - d.exponent)
  }

  /** The most significant decimal digit. */
  function LeadingDigit(m: nat): (r: nat)
    ensures r < 10
    ensures m > 0 ==> r > 0
  {
    if m < 10 then m else LeadingDigit(m / 10)
  }

  /** `parseInt(String(x))`: `String` writes plain decimal for 10^-6 <= |x| < 10^21, so
      `parseInt` keeps the integer part; elsewhere it writes `d.ddde+n` or `d.ddde-n`, and
      `parseInt` stops after the first significant digit. Zero reads as 0. */
  function ParseIntOfNumber(d: Decimal): (r: int)
    ensures d.mantissa == 0 ==> r == 0
    ensures d.negative ==> r <= 0
    ensures !d.negative ==> r >= 0
  {
    var magnitude :=
      if d.mantissa == 0 then 0
      else if !MagnitudeBelow(d, PlainLimit) || BelowMicro(d) then LeadingDigit(d.mantissa)
      else Truncate(d);
    if d.negative then 0 - magnitude else magnitude
  }

  /** Truncation is below a natural number `n` exactly when the magnitude is. */
  lemma TruncateBelow(d: Decimal, n: nat)
    ensures Truncate(d) < n <==> MagnitudeBelow(d, n)
  {
    if d.exponent < 0 {
      DropDigitsBelow(d.mantissa, 0 - d.exponent, n);
    }
  }

  lemma MagnitudeBelowMonotone(d: Decimal, a: nat, b: nat)
    requires a <= b && MagnitudeBelow(d, a)
    ensures MagnitudeBelow(d, b)
  {
    if d.exponent < 0 {
      ShiftUpMonotone(a, b, 0 - d.exponent, 0 - d.exponent);
    }
  }

  /** A magnitude of at least 1 is not below 10^-6. */
  lemma AtLeastOneIsNotMicro(d: Decimal)
    requires !MagnitudeBelow(d, 1)
    ensures !BelowMicro(d)
  {
    if d.exponent >= 0 {
      ShiftUpMonotone(d.mantissa, d.mantissa, d.exponent, d.exponent + 6);
    } else if d.exponent + 6 < 0 {
      ShiftUpMonotone(1, 1, 0 - (d.exponent + 6), 0 - d.exponent);
    }
  }

  /** `parseInt(String(x))` of a non-zero number falls below a threshold `n` from 10 up
      to 10^21 exactly when `x` is negative, below `n`, or at least 10^21. */
  lemma ParseIntThreshold(d: Decimal, n: nat)
    requires d.mantissa > 0 && 10 <= n <= PlainLimit
    ensures ParseIntOfNumber(d) < n <==>
              d.negative || MagnitudeBelow(d, n) || !MagnitudeBelow(d, PlainLimit)
  {
    TruncateBelow(d, n);
    if !d.negative && !MagnitudeBelow(d, n) {
      if MagnitudeBelow(d, 1) {
        MagnitudeBelowMonotone(d, 1, n);
      }
      AtLeastOneIsNotMicro(d);
    }
  }

  /** The decimal text of a natural number is a valid number worth that number. */
  lemma FloatValueOfNat(n: nat)
    ensures FloatValue(NatToString(n)) == Some(Decimal(false, n, 0))
  {
    var s := NatToString(n);
    LeadingDigitsOf(s, []);
    assert s + [] == s;
  }

  /** A natural number below 10^21 reads back as itself. */
  lemma ParseIntOfWholeNumber(n: nat)
    requires n < PlainLimit
    ensures ParseIntOfNumber(Decimal(false, n, 0)) == n
  {
    if n > 0 {
      AtLeastOneIsNotMicro(Decimal(false, n, 0));
    }
  }

  /** A point, digits and an exponent part read as that fraction and exponent part. */
  lemma {:induction false} FractionPartOf(frac: string, expo: string)
    requires AllDigits(frac)
    requires expo == [] || !IsDigit(expo[0])
    ensures FractionPart("." + frac + expo) == (true, frac, expo)
  {
    assert ("." + frac + expo)[1..] == frac + expo;
    SplitDigitsOf(frac, expo);
  }

  /** `FloatValue` of an unsigned text, from the parts it splits into. */
  lemma {:induction false} FloatValueFromParts(s: string, whole: string, rest: string, fraction: (bool, string, string), e: int)
    requires |s| > 0 && s[0] != '-'
    requires SplitDigits(s) == (whole, rest) && FractionPart(rest) == fraction
    requires ExponentOf(fraction.2) == Some(e)
    requires |whole| + |fraction.1| > 0 && (fraction.0 ==> |fraction.1| > 0)
    ensures FloatValue(s).Some? && !FloatValue(s).value.negative
    ensures FloatValue(s).value.mantissa == DigitsValue(whole + fraction.1)
    ensures FloatValue(s).value.exponent == e - |fraction.1|
  {
    AllDigitsConcat(whole, fraction.1);
  }

  /** Digits followed by an exponent part are accepted and stand for the digits shifted
      by the exponent. */
  lemma {:induction false} FloatValueOfWhole(s: string, whole: string, expo: string, e: int)
    requires s == whole + expo
    requires |whole| > 0 && AllDigits(whole) && ExponentOf(expo) == Some(e)
    ensures FloatValue(s) == Some(Decimal(false, DigitsValue(whole), e))
  {
    assert s[0] == whole[0] && IsDigit(whole[0]);
    SplitDigitsOf(whole, expo);
    assert FractionPart(expo) == (false, [], expo);
    assert whole + [] == whole;
  }

  /** Digits, a point, more digits and an exponent part are accepted, and stand for all
      the digits shifted by the exponent less the fraction's length. */
  lemma {:induction false} FloatValueOfFraction(s: string, whole: string, frac: string, expo: string, e: int)
    requires s == whole + "." + frac + expo
    requires |whole| > 0 && AllDigits(whole) && |frac| > 0 && AllDigits(frac)
    requires ExponentOf(expo) == Some(e)
    ensures FloatValue(s).Some? && !FloatValue(s).value.negative
    ensures FloatValue(s).value.mantissa == DigitsValue(whole + frac)
    ensures FloatValue(s).value.exponent == e - |frac|
  {
    var rest := "." + frac + expo;
    assert s == whole + rest;
    assert s[0] == whole[0] && IsDigit(whole[0]);
    SplitDigitsOf(whole, rest);
    FractionPartOf(frac, expo);
    FloatValueFromParts(s, whole, rest, (true, frac, expo), e);
  }

  // Examples of text the box accepts, and the numbers they stand for.

  lemma TwoEOneValue(s: string)
    requires s == "2e1"
    ensures FloatValue(s) == Some(Decimal(false, 2, 1))
  {
    ExponentOne();
    assert s == "2" + "e1";
    FloatValueOfWhole(s, "2", "e1", 1);
  }

  lemma OnePointEightEOneValue(s: string)
    requires s == "1.8e1"
    ensures FloatValue(s) == Some(Decimal(false, 18, 0))
  {
    ExponentOne();
    assert s == "1" + "." + "8" + "e1";
    FloatValueOfFraction(s, "1", "8", "e1", 1);
    OneAndEight();
    var r := FloatValue(s);
    assert r.Some? && !r.value.negative && r.value.mantissa == 18 && r.value.exponent == 0;
  }

  lemma ExponentOne()
    ensures ExponentOf("e1") == Some(1)
  {
    assert "e1"[1..] == "1";
  }

  lemma OneAndEight()
    ensures DigitsValue("1" + "8") == 18
  {
    assert "1" + "8" == "18" && "18"[..1] == "1";
  }

  lemma SeventeenPointNineValue(s: string)
    requires s == "17.9"
    ensures FloatValue(s) == Some(Decimal(false, 179, -1))
  {
    assert s == "17" + "." + "9" + "";
    FloatValueOfFraction(s, "17", "9", "", 0);
    assert DigitsValue("17" + "9") == 179 by {
      assert "17" + "9" == "179" && "179"[..2] == "17" && "17"[..1] == "1";
    }
    var r := FloatValue(s);
    assert r.Some? && !r.value.negative && r.value.mantissa == 179 && r.value.exponent == -1;
  }

  lemma ZeroPointZeroValue(s: string)
    requires s == "0.0"
    ensures FloatValue(s) == Some(Decimal(false, 0, -1))
  {
    assert s == "0" + "." + "0" + "";
    FloatValueOfFraction(s, "0", "0", "", 0);
    assert DigitsValue("0" + "0") == 0 by { assert "0" + "0" == "00" && "00"[..1] == "0"; }
    var r := FloatValue(s);
    assert r.Some? && !r.value.negative && r.value.mantissa == 0 && r.value.exponent == -1;
  }

  lemma OneETwentyOneValue(s: string)
    requires s == "1e21"
    ensures FloatValue(s) == Some(Decimal(false, 1, 21))
  {
    assert DigitsValue("21") == 21 by { assert "21"[..1] == "2"; }
    assert ExponentOf("e21") == Some(21) by { assert "e21"[1..] == "21"; }
    assert s == "1" + "e21";
    FloatValueOfWhole(s, "1", "e21", 21);
  }
}

=== FILE: records.dfy ===
/** The application record every part of the portal reads and writes (types.ts). */
module Records {
  import opened Maybe

  datatype TrainingType = Internship | Project

  datatype Status = Pending | Approved | Rejected

  datatype Gender = Male | Female | Other

  /** Where the internal office memo for the training is routed. */
  datatype IomOption = IomToAcCisf | IomToSafetyDept | IomToRespectiveDept

  /** A date or time held as text in the record, abstracted by what `new Date(text)`
      makes of it: `Unset` is the empty string (falsy, so guarded code skips it),
      `Invalid` is text that parses to NaN, `At(ms)` is a valid instant in milliseconds
      since the epoch (a calendar date is its midnight). */
  datatype Timestamp = Unset | Invalid | At(ms: int)

  /** One trainee's application. Fields that the record type declares as strings and the
      core only copies or tests for emptiness stay strings; `days` is a number. */
  datatype Application = Application(
    id: string,                    // gate pass id, "SP" and six digits
    applicationNo: string,         // six characters from 0-9A-Z
    groupId: string,               // shared by the students registered together
    studentName: string,
    age: string,
    dob: string,
    identificationMark: string,
    course: string,
    specialization: string,
    collegeName: string,
    days: int,
    fromDate: Timestamp,
    toDate: Timestamp,
    deptIPT: string,
    trainingType: TrainingType,
    passNo: string,
    gender: Gender,
    fatherName: string,
    year: string,
    mobileNo: string,
    emergencyNo: string,
    collegeAddress: string,
    residentialAddress: string,
    amount: string,
    ddNumber: string,
    ddDate: string,
    ddBank: string,
    paymentDate: string,
    status: Status,
    spnoEmployee: string,
    paymentMethod: string,
    category: string,
    signatureByName: string,
    iomTraining: IomOption,
    referralNo: string,
    referralDesignation: string,
    referralPersonContact: string,
    referralDepartment: string,
    createdAt: Timestamp,
    letterNo: string,
    letterDate: string,
    documents: Option<map<string, string>>  // document type to data URL; None when absent
  )

  /** The personal and academic details (form stages 1 and 2): one student's own. */
  datatype PersonalPart = PersonalPart(
    studentName: string, fatherName: string, age: string, dob: string,
    identificationMark: string, gender: Gender, mobileNo: string, emergencyNo: string,
    residentialAddress: string, category: string, course: string, specialization: string,
    collegeName: string, year: string, collegeAddress: string)

  /** The training and referral details (form stages 3 and 4) that the students of one
      group share, with the group link itself. */
  datatype GroupPart = GroupPart(
    groupId: string, trainingType: TrainingType, deptIPT: string, fromDate: Timestamp,
    days: int, toDate: Timestamp, iomTraining: IomOption, referralNo: string,
    referralDesignation: string, referralPersonContact: string, referralDepartment: string,
    passNo: string, spnoEmployee: string)

  /** Office-side fields the application form never touches: payment, status, letters,
      attachments. */
  datatype OfficePart = OfficePart(
    amount: string, ddNumber: string, ddDate: string, ddBank: string, paymentDate: string,
    status: Status, paymentMethod: string, signatureByName: string, letterNo: string,
    letterDate: string, documents: Option<map<string, string>>)

  function Personal(a: Application): PersonalPart {
    PersonalPart(a.studentName, a.fatherName, a.age, a.dob, a.identificationMark, a.gender,
                 a.mobileNo, a.emergencyNo, a.residentialAddress, a.category, a.course,
                 a.specialization, a.collegeName, a.year, a.collegeAddress)
  }

  function Group(a: Application): GroupPart {
    GroupPart(a.groupId, a.trainingType, a.deptIPT, a.fromDate, a.days, a.toDate,
              a.iomTraining, a.referralNo, a.referralDesignation, a.referralPersonContact,
              a.referralDepartment, a.passNo, a.spnoEmployee)
  }

  function Office(a: Application): OfficePart {
    OfficePart(a.amount, a.ddNumber, a.ddDate, a.ddBank, a.paymentDate, a.status,
               a.paymentMethod, a.signatureByName, a.letterNo, a.letterDate, a.documents)
  }

  /** The three parts together with the identity fields (`id`, `applicationNo`,
      `createdAt`) cover every field: records that agree on all of them are equal. */
  lemma PartsDetermineRecord(a: Application, b: Application)
    requires a.id == b.id && a.applicationNo == b.applicationNo && a.createdAt == b.createdAt
    requires Personal(a) == Personal(b) && Group(a) == Group(b) && Office(a) == Office(b)
    ensures a == b
  {
  }

  /** The personal part of a freshly blanked form. */
  const BlankPersonal := PersonalPart("", "", "", "", "", Male, "", "", "", "", "", "", "", "", "")

  /** `existingApps.map(a => a.id)`. */
  function Ids(apps: seq<Application>): (r: seq<string>)
    ensures |r| == |apps| && forall i :: 0 <= i < |apps| ==> r[i] == apps[i].id
  {
    seq(|apps|, i requires 0 <= i < |apps| => apps[i].id)
  }

  /** `existingApps.map(a => a.applicationNo)`. */
  function ApplicationNos(apps: seq<Application>): (r: seq<string>)
    ensures |r| == |apps| && forall i :: 0 <= i < |apps| ==> r[i] == apps[i].applicationNo
  {
    seq(|apps|, i requires 0 <= i < |apps| => apps[i].applicationNo)
  }
}

=== FILE: seqs.dfy ===
/** Order-preserving filtering, counting and summing over sequences: the
    `Array.prototype.filter`, `.length` and `.reduce((sum, x) => sum + f(x), 0)`
    idioms the dashboard is built from. */
module Seqs {

  /** `s.filter(p)`: the elements of `s` that satisfy `p`, in their original order. */
  function Filter<T(==)>(s: seq<T>, p: T -> bool): (r: seq<T>)
    ensures |r| <= |s|
    ensures forall i :: 0 <= i < |r| ==> r[i] in s && p(r[i])
    ensures forall i :: 0 <= i < |s| && p(s[i]) ==> s[i] in r
  {
    if |s| == 0 then [] else (if p(s[0]) then [s[0]] else []) + Filter(s[1..], p)
  }

  /** Filtering keeps every occurrence of an element that passes and none of one that
      fails: with the order kept (`FilterIsSubsequence`), this pins the result down. */
  lemma {:induction false} FilterMultiset<T>(s: seq<T>, p: T -> bool)
    ensures forall x :: multiset(Filter(s, p))[x] == if p(x) then multiset(s)[x] else 0
  {
    if |s| > 0 {
      FilterMultiset(s[1..], p);
      assert s == [s[0]] + s[1..];
    }
  }

  /** The complement of a predicate. */
  function Not<T>(p: T -> bool): T -> bool {
    x => !p(x)
  }

  /** `s.filter(p).length`. */
  function Count<T(==)>(s: seq<T>, p: T -> bool): nat {
    |Filter(s, p)|
  }

  /** `s.reduce((sum, x) => sum + f(x), 0)`. */
  function SumBy<T>(s: seq<T>, f: T -> int): int {
    if |s| == 0 then 0 else f(s[0]) + SumBy(s[1..], f)
  }

  /** `a` can be obtained from `b` by deleting elements (checked by greedy matching, which
      finds an embedding whenever one exists). */
  predicate IsSubsequence<T(==)>(a: seq<T>, b: seq<T>)
    decreases |b|
  {
    |a| == 0 || (|b| > 0 && if a[0] == b[0] then IsSubsequence(a[1..], b[1..]) else IsSubsequence(a, b[1..]))
  }

  lemma {:induction false} FilterConcat<T>(a: seq<T>, b: seq<T>, p: T -> bool)
    ensures Filter(a + b, p) == Filter(a, p) + Filter(b, p)
    decreases |a|
  {
    if |a| == 0 {
      assert a + b == b;
    } else {
      assert (a + b)[1..] == a[1..] + b;
      FilterConcat(a[1..], b, p);
    }
  }

  lemma {:induction false} SumByConcat<T>(a: seq<T>, b: seq<T>, f: T -> int)
    ensures SumBy(a + b, f) == SumBy(a, f) + SumBy(b, f)
    decreases |a|
  {
    if |a| == 0 {
      assert a + b == b;
    } else {
      assert (a + b)[1..] == a[1..] + b;
      SumByConcat(a[1..], b, f);
    }
  }

  /** Filtering keeps the relative order of what it keeps. */
  lemma {:induction false} FilterIsSubsequence<T>(s: seq<T>, p: T -> bool)
    ensures IsSubsequence(Filter(s, p), s)
  {
    if |s| > 0 {
      FilterIsSubsequence(s[1..], p);
      var r := Filter(s, p);
      if p(s[0]) {
        assert r[0] == s[0] && r[1..] == Filter(s[1..], p);
      } else {
        assert r == Filter(s[1..], p);
        if |r| > 0 {
          assert r[0] in r;
        }
      }
    }
  }

  /** Filtering twice by the same predicate is filtering once. */
  lemma {:induction false} FilterIdempotent<T>(s: seq<T>, p: T -> bool)
    ensures Filter(Filter(s, p), p) == Filter(s, p)
  {
    if |s| > 0 {
      FilterIdempotent(s[1..], p);
      if p(s[0]) {
        var r := Filter(s, p);
        assert r == [s[0]] + Filter(s[1..], p);
        assert r[0] == s[0] && r[1..] == Filter(s[1..], p);
        assert Filter(r, p) == [s[0]] + Filter(r[1..], p);
      } else {
        assert Filter(s, p) == Filter(s[1..], p);
      }
    }
  }

  /** Filtering a sequence extended by one element. */
  lemma FilterSnoc<T>(s: seq<T>, x: T, p: T -> bool)
    ensures Filter(s + [x], p) == Filter(s, p) + (if p(x) then [x] else [])
  {
    FilterConcat(s, [x], p);
    assert [x][1..] == [];
  }

  /** Filtering one more element of a prefix. */
  lemma FilterPrefixStep<T>(s: seq<T>, i: int, p: T -> bool)
    requires 0 <= i < |s|
    ensures Filter(s[..i + 1], p) == Filter(s[..i], p) + (if p(s[i]) then [s[i]] else [])
  {
    assert s[..i + 1] == s[..i] + [s[i]];
    FilterSnoc(s[..i], s[i], p);
  }

  /** Predicates that agree on every element filter alike. */
  lemma {:induction false} FilterCongruent<T>(s: seq<T>, p: T -> bool, q: T -> bool)
    requires forall i :: 0 <= i < |s| ==> p(s[i]) == q(s[i])
    ensures Filter(s, p) == Filter(s, q)
  {
    if |s| > 0 {
      FilterCongruent(s[1..], p, q);
    }
  }

  /** A filter that keeps everything returns its input. */
  lemma {:induction false} FilterKeepsAll<T>(s: seq<T>, p: T -> bool)
    requires forall i :: 0 <= i < |s| ==> p(s[i])
    ensures Filter(s, p) == s
  {
    if |s| > 0 {
      FilterKeepsAll(s[1..], p);
    }
  }

  /** Filtering by `p` and by its complement splits `s`: lengths add up, and so do
      multiplicities. */
  lemma FilterSplit<T>(s: seq<T>, p: T -> bool)
    ensures |Filter(s, p)| + |Filter(s, Not(p))| == |s|
    ensures multiset(Filter(s, p)) + multiset(Filter(s, Not(p))) == multiset(s)
  {
    FilterMultiset(s, p);
    FilterMultiset(s, Not(p));
    var kept, dropped := multiset(Filter(s, p)), multiset(Filter(s, Not(p)));
    assert forall x :: (kept + dropped)[x] == multiset(s)[x];
    assert kept + dropped == multiset(s);
    assert |kept + dropped| == |kept| + |dropped|;
  }

  /** Summing over the elements kept by `p` and over those it drops gives the full sum. */
  lemma {:induction false} SumBySplit<T>(s: seq<T>, p: T -> bool, f: T -> int)
    ensures SumBy(Filter(s, p), f) + SumBy(Filter(s, Not(p)), f) == SumBy(s, f)
  {
    if |s| > 0 {
      SumBySplit(s[1..], p, f);
      if p(s[0]) {
        assert Filter(s, p) == [s[0]] + Filter(s[1..], p);
        assert Filter(s, Not(p)) == Filter(s[1..], Not(p));
      } else {
        assert Filter(s, p) == Filter(s[1..], p);
        assert Filter(s, Not(p)) == [s[0]] + Filter(s[1..], Not(p));
      }
    }
  }

  /** Two predicates that never hold together count no more than the whole sequence. */
  lemma {:induction false} CountDisjoint<T>(s: seq<T>, p: T -> bool, q: T -> bool)
    requires forall i :: 0 <= i < |s| ==> !(p(s[i]) && q(s[i]))
    ensures Count(s, p) + Count(s, q) <= |s|
  {
    if |s| > 0 {
      CountDisjoint(s[1..], p, q);
    }
  }

  /** A stronger predicate counts no more than a weaker one. */
  lemma {:induction false} CountMonotone<T>(s: seq<T>, p: T -> bool, q: T -> bool)
    requires forall i :: 0 <= i < |s| && p(s[i]) ==> q(s[i])
    ensures Count(s, p) <= Count(s, q)
  {
    if |s| > 0 {
      CountMonotone(s[1..], p, q);
    }
  }

  /** The positions of `s` whose element satisfies `p`. */
  function Positions<T>(s: seq<T>, p: T -> bool): set<int> {
    set i | 0 <= i < |s| && p(s[i])
  }

  /** Counting by filtering agrees with counting positions. */
  lemma {:induction false} CountIsPositions<T>(s: seq<T>, p: T -> bool)
    ensures Count(s, p) == |Positions(s, p)|
    decreases |s|
  {
    if |s| == 0 {
      assert Positions(s, p) == {};
    } else {
      var n := |s| - 1;
      var front := s[..n];
      CountIsPositions(front, p);
      assert s == front + [s[n]];
      FilterSnoc(front, s[n], p);
      var a := Positions(front, p);
      assert n !in a;
      forall i
        ensures i in Positions(s, p) <==> i in a || (i == n && p(s[n]))
      {
        if 0 <= i < n {
          assert front[i] == s[i];
        }
      }
      if p(s[n]) {
        assert Positions(s, p) == a + {n};
      } else {
        assert Positions(s, p) == a;
      }
    }
  }

  /** No two elements share a key. */
  predicate DistinctBy<T, K(==)>(s: seq<T>, key: T -> K) {
    forall i, j :: 0 <= i < j < |s| ==> key(s[i]) != key(s[j])
  }

  /** Dropping elements keeps keys distinct. */
  lemma {:induction false} FilterDistinctBy<T, K>(s: seq<T>, p: T -> bool, key: T -> K)
    requires DistinctBy(s, key)
    ensures DistinctBy(Filter(s, p), key)
  {
    if |s| > 0 {
      FilterDistinctBy(s[1..], p, key);
      var rest := Filter(s[1..], p);
      if p(s[0]) {
        forall j | 0 <= j < |rest|
          ensures key(s[0]) != key(rest[j])
        {
          assert rest[j] in s[1..];
          var k :| 0 <= k < |s[1..]| && s[1..][k] == rest[j];
          assert s[k + 1] == rest[j];
        }
        assert Filter(s, p) == [s[0]] + rest;
      }
    }
  }
}

=== FILE: store.dfy ===
/** The record store held at the application root (App.tsx): append with a duplicate
    gate pass check, replace by id, delete by id after confirmation. */
module Store {
  import opened JsText
  import opened Seqs
  import opened Records
  import Identifiers

  /** `id.trim().toUpperCase()`: the form in which adding compares gate pass ids. */
  function NormalizeId(id: string): string {
    ToUpper(Trim(id))
  }

  function NormalizedIdOf(a: Application): string {
    NormalizeId(a.id)
  }

  /** Some stored record's id equals `id` once both are trimmed and upper-cased. */
  predicate IsIdDuplicate(apps: seq<Application>, id: string) {
    exists i :: 0 <= i < |apps| && NormalizeId(apps[i].id) == NormalizeId(id)
  }

  /** The store invariant adding maintains: no two ids agree after trim and upper-case. */
  predicate UniqueIds(apps: seq<Application>) {
    DistinctBy(apps, NormalizedIdOf)
  }

  datatype AddOutcome = Added(apps: seq<Application>) | DuplicateGatePass

  /** `handleAddApplication`: refuse (with an alert) a record whose id collides with a
      stored one, otherwise append it. */
  function HandleAdd(apps: seq<Application>, app: Application): (r: AddOutcome)
    ensures r.Added? ==> |r.apps| == |apps| + 1 && r.apps[..|apps|] == apps && r.apps[|apps|] == app
  {
    if IsIdDuplicate(apps, app.id) then DuplicateGatePass else Added(apps + [app])
  }

  /** The store after `handleAddApplication`: a refusal leaves it as it was. */
  function StoreAfterAdd(apps: seq<Application>, app: Application): seq<Application> {
    match HandleAdd(apps, app)
    case Added(s) => s
    case DuplicateGatePass => apps
  }

  /** A record whose id matches a stored id after trim and upper-case is refused and the
      store does not change; any other record is appended at the end. */
  lemma AddChecksNormalizedIds(apps: seq<Application>, app: Application)
    ensures (exists i :: 0 <= i < |apps| && NormalizedIdOf(apps[i]) == NormalizeId(app.id)) ==>
              HandleAdd(apps, app) == DuplicateGatePass && StoreAfterAdd(apps, app) == apps
    ensures (forall i :: 0 <= i < |apps| ==> NormalizedIdOf(apps[i]) != NormalizeId(app.id)) ==>
              StoreAfterAdd(apps, app) == apps + [app]
  {
  }

  /** Adding keeps the ids unique after trim and upper-case. */
  lemma AddPreservesUniqueIds(apps: seq<Application>, app: Application)
    requires UniqueIds(apps)
    ensures UniqueIds(StoreAfterAdd(apps, app))
  {
    var r := StoreAfterAdd(apps, app);
    if !IsIdDuplicate(apps, app.id) {
      forall i, j | 0 <= i < j < |r|
        ensures NormalizedIdOf(r[i]) != NormalizedIdOf(r[j])
      {
        if j == |apps| {
          assert r[i] == apps[i] && r[j] == app;
        } else {
          assert r[i] == apps[i] && r[j] == apps[j];
        }
      }
    }
  }

  /** `handleUpdateApplication`: every record whose id equals the new record's id exactly
      (case-sensitive, untrimmed) is replaced by it; the rest stay as they are. */
  function UpdateById(apps: seq<Application>, updated: Application): (r: seq<Application>)
    ensures |r| == |apps|
    ensures forall i :: 0 <= i < |apps| ==> r[i].id == apps[i].id
    ensures forall i :: 0 <= i < |apps| && apps[i].id == updated.id ==> r[i] == updated
    ensures forall i :: 0 <= i < |apps| && apps[i].id != updated.id ==> r[i] == apps[i]
  {
    seq(|apps|, i requires 0 <= i < |apps| => if apps[i].id == updated.id then updated else apps[i])
  }

  /** An update whose id matches nothing exactly changes nothing. */
  lemma UpdateWithoutMatchIsNoop(apps: seq<Application>, updated: Application)
    requires forall i :: 0 <= i < |apps| ==> apps[i].id != updated.id
    ensures UpdateById(apps, updated) == apps
  {
  }

  /** Updating twice with the same record is updating once. */
  lemma UpdateIdempotent(apps: seq<Application>, updated: Application)
    ensures UpdateById(UpdateById(apps, updated), updated) == UpdateById(apps, updated)
  {
  }

  /** Updates keep every id in place, so they keep ids unique. */
  lemma UpdatePreservesUniqueIds(apps: seq<Application>, updated: Application)
    requires UniqueIds(apps)
    ensures UniqueIds(UpdateById(apps, updated))
  {
    var r := UpdateById(apps, updated);
    forall i, j | 0 <= i < j < |r|
      ensures NormalizedIdOf(r[i]) != NormalizedIdOf(r[j])
    {
      assert r[i].id == apps[i].id && r[j].id == apps[j].id;
    }
  }

  function HasOtherId(id: string): Application -> bool {
    (a: Application) => a.id != id
  }

  /** `handleDeleteApplication`: when the user confirms, drop every record whose id equals
      `id` exactly; otherwise leave the store alone. */
  function HandleDelete(apps: seq<Application>, id: string, confirmed: bool): (r: seq<Application>)
    ensures !confirmed ==> r == apps
    ensures confirmed ==> forall i :: 0 <= i < |r| ==> r[i].id != id && r[i] in apps
    ensures confirmed ==> forall i :: 0 <= i < |apps| && apps[i].id != id ==> apps[i] in r
    ensures confirmed ==> forall x :: multiset(r)[x] == if x.id != id then multiset(apps)[x] else 0
    ensures IsSubsequence(r, apps)
  {
    if confirmed then
      FilterIsSubsequence(apps, HasOtherId(id));
      FilterMultiset(apps, HasOtherId(id));
      Filter(apps, HasOtherId(id))
    else
      FilterKeepsAll(apps, (_: Application) => true);
      FilterIsSubsequence(apps, (_: Application) => true);
      apps
  }

  /** Deleting the same id twice gives the same store as deleting it once. */
  lemma DeleteIdempotent(apps: seq<Application>, id: string, confirmed: bool)
    ensures HandleDelete(HandleDelete(apps, id, confirmed), id, confirmed) == HandleDelete(apps, id, confirmed)
  {
    if confirmed {
      FilterIdempotent(apps, HasOtherId(id));
    }
  }

  /** Deleting an id no record carries changes nothing. */
  lemma DeleteAbsentIsNoop(apps: seq<Application>, id: string, confirmed: bool)
    requires forall i :: 0 <= i < |apps| ==> apps[i].id != id
    ensures HandleDelete(apps, id, confirmed) == apps
  {
    FilterKeepsAll(apps, HasOtherId(id));
  }

  /** Deleting keeps ids unique. */
  lemma DeletePreservesUniqueIds(apps: seq<Application>, id: string, confirmed: bool)
    requires UniqueIds(apps)
    ensures UniqueIds(HandleDelete(apps, id, confirmed))
  {
    FilterDistinctBy(apps, HasOtherId(id), NormalizedIdOf);
  }

  /** Adding compares trimmed, upper-cased ids while updating and deleting compare ids
      exactly: a record whose id differs from every stored id only in case or surrounding
      whitespace is refused by add, yet update and delete with it touch nothing. */
  lemma CaseAsymmetry(apps: seq<Application>, app: Application)
    requires exists i :: 0 <= i < |apps| && NormalizedIdOf(apps[i]) == NormalizeId(app.id)
    requires forall i :: 0 <= i < |apps| ==> apps[i].id != app.id
    ensures StoreAfterAdd(apps, app) == apps && HandleAdd(apps, app).DuplicateGatePass?
    ensures UpdateById(apps, app) == apps
    ensures HandleDelete(apps, app.id, true) == apps
  {
    AddChecksNormalizedIds(apps, app);
    UpdateWithoutMatchIsNoop(apps, app);
    DeleteAbsentIsNoop(apps, app.id, true);
  }

  /** Such ids exist: "sp000001" and "SP000001" are different ids that add treats as one. */
  lemma LowerCaseIdCollides(lower: string, upper: string)
    requires lower == "sp000001" && upper == "SP000001"
    ensures lower != upper && NormalizeId(lower) == NormalizeId(upper)
  {
    assert lower[0] != upper[0];
    TrimKeepsInnerText(lower);
    TrimKeepsInnerText(upper);
    forall i | 0 <= i < |lower|
      ensures UpperChar(lower[i]) == upper[i] && UpperChar(upper[i]) == upper[i]
    {
    }
  }

  /** Text that neither starts nor ends with whitespace is left alone by `trim`. */
  lemma TrimKeepsInnerText(s: string)
    requires |s| > 0 && !IsSpace(s[0]) && !IsSpace(s[|s| - 1])
    ensures Trim(s) == s
  {
    assert TrimStart(s) == s;
  }

  /** A well-formed gate pass id is its own normal form. */
  lemma WellFormedIdIsNormal(id: string)
    requires Identifiers.WellFormedGatePassId(id)
    ensures NormalizeId(id) == id
  {
    assert id[0] == 'S' && IsDigit(id[2..][5]);
    DigitIsNotSpace(id[|id| - 1]);
    TrimKeepsInnerText(id);
    forall i | 0 <= i < |id|
      ensures UpperChar(id[i]) == id[i]
    {
      if i >= 2 {
        assert IsDigit(id[2..][i - 2]);
      }
    }
  }

  /** In a store whose ids are all well formed and below "SP999999", a record carrying
      the id the allocator hands out is accepted. */
  lemma AllocatedIdIsAccepted(apps: seq<Application>, app: Application)
    requires forall i :: 0 <= i < |apps| ==> Identifiers.WellFormedGatePassId(apps[i].id)
    requires Identifiers.LastNumber(Ids(apps)) < 999999
    requires app.id == Identifiers.NextGatePassId(Ids(apps))
    ensures StoreAfterAdd(apps, app) == apps + [app]
  {
    var ids := Ids(apps);
    assert forall i :: 0 <= i < |ids| ==> ids[i] == apps[i].id;
    Identifiers.WellFormedIdsCountFromZero(ids);
    Identifiers.NextGatePassIdShape(ids);
    assert Identifiers.WellFormedGatePassId(app.id);
    Identifiers.NextGatePassIdFresh(ids);
    assert app.id !in ids;
    WellFormedIdIsNormal(app.id);
    assert NormalizeId(app.id) == app.id;
    forall i | 0 <= i < |apps|
      ensures NormalizeId(apps[i].id) != NormalizeId(app.id)
    {
      WellFormedIdIsNormal(apps[i].id);
      assert apps[i].id == ids[i];
      assert ids[i] != app.id;
    }
    assert !IsIdDuplicate(apps, app.id);
    assert HandleAdd(apps, app) == Added(apps + [app]);
  }
}
